=== FILE: README.md ===
# Django learning-lab validators and access rules, in Dafny

This project models the parts of the Alx Django learning-lab repository that
decide something: the input validators and the access-control rules. Framework
glue (ORM, templates, routing, admin) is not modelled.

- **Bookshelf forms** (`BookshelfForms`). `BookForm.clean_title`,
  `clean_author`, `clean_publication_year` and `clean`.
  `CustomUserCreationForm.clean_email` and `clean_date_of_birth`.
  `BookSearchForm.clean_query`. Each returns the cleaned value or the message
  of the `ValidationError` it raises.
- **Bookshelf views** (`BookshelfViews`). The check chain of
  `book_create_view` and the field-update rule of `book_edit_view`, over an
  in-memory catalog of books.
- **Social media API** (`AccountPermissions`, `SocialAccounts`). The two custom
  permission classes, the decision of `ProfileViewSet`,
  `LoginSerializer.validate` and `CustomUser.validate_birth_date`.
- **Advanced API views** (`ApiViews`). The method-to-permission choice of the
  five generic book views, and the request handling of the delete view.
- **Blog forms** (`BlogForms`). The `PostForm` checks,
  `UserProfileForm.cleaned_email` and `RegisterForm.save`.
- **Book serializer** (`ApiSerializers`). `BookSerializer.validate_publication_year`.
- **Recent books** (`BookRecent`). `Book.is_recent`.

The Python and Django behaviour these rely on is modelled in helper modules:

- `PyText`: `str.isspace`, `strip`, ASCII `lower`, substring search.
- `Html`: Django's `escape`, with a reference inverse.
- `PyInt`: `int()` on text, including its default limit of 4300 digits and the whitespace it skips, with `str()` as its partner.
- `SqlPatterns`: the "dangerous content" regular expressions, as exact match
  predicates.
- `Dates`: `datetime.date`, `toordinal` and completed years.
- `Drf`: `request.user` and `SAFE_METHODS`.

The current date, the user tables and the password check are all parameters.
Escaping is an assumption about a library the model cannot see. It replaces
exactly `&`, `<`, `>`, `"` and `'` by `&amp;`, `&lt;`, `&gt;`, `&quot;` and
`&#x27;`.

## Model

| member | source | states |
|---|---|---|
| PyText.Strip | advanced_features_and_security/LibraryProject/bookshelf/forms.py:138 | the result is empty exactly when the input is all whitespace; otherwise it is the input's slice between whitespace-only ends, and neither of its ends is whitespace |
| PyText.StripIdempotent | advanced_features_and_security/LibraryProject/bookshelf/forms.py:138 | stripping an already stripped value changes nothing |
| PyText.StripKeepsOccurrence | advanced_features_and_security/LibraryProject/bookshelf/forms.py:138-139 | an occurrence of a pattern that neither starts nor ends with whitespace is still there after stripping, shifted by the removed prefix |
| Html.Escape | advanced_features_and_security/LibraryProject/bookshelf/forms.py:139 | the escaped text is never shorter than the input and contains no `<` or `>` |
| Html.EscapeRoundTrip | advanced_features_and_security/LibraryProject/bookshelf/forms.py:139 | unescaping the escaped text gives back the input, so escaping loses nothing |
| Html.EscapeInjective | advanced_features_and_security/LibraryProject/bookshelf/forms.py:139 | two inputs with the same escaped text are equal |
| Html.EscapeConcat | advanced_features_and_security/LibraryProject/bookshelf/forms.py:139 | escaping distributes over concatenation |
| Html.EscapeGrowsOnSpecial | advanced_features_and_security/LibraryProject/bookshelf/forms.py:139-143 | a text holding one special character escapes to at least three more characters than it has, on the length the limit is measured on |
| Html.EscapeGrowsPerSpecial | advanced_features_and_security/LibraryProject/bookshelf/forms.py:139-143 | the escaped length is at least the length plus three for every special character in the text |
| Html.EscapePlain | advanced_features_and_security/LibraryProject/bookshelf/views.py:161-162 | text with no special character is its own escape |
| Html.EscapeKeepsOccurrence | advanced_features_and_security/LibraryProject/bookshelf/forms.py:159-164 | a pattern made of ordinary characters survives escaping at the escaped position |
| PyInt.IntStrip | advanced_features_and_security/LibraryProject/bookshelf/views.py:207 | the text `int()` reads is the input's slice between ends made only of the whitespace `int()` skips, and neither of its ends is such whitespace |
| PyInt.ParseInt | advanced_features_and_security/LibraryProject/bookshelf/views.py:207 | a text that reads as a number is not all whitespace |
| PyInt.SeparatorNotSkipped | advanced_features_and_security/LibraryProject/bookshelf/views.py:207 | `int()` refuses `"\x1c2023"`, while stripping it first gives `"2023"`, which reads as 2023 |
| PyInt.ParseIntRoundTrip | advanced_features_and_security/LibraryProject/bookshelf/views.py:152 | `int(str(n)) == n` for every integer of at most 4300 digits, negative ones included |
| PyInt.ParsePlainDigits | advanced_features_and_security/LibraryProject/bookshelf/views.py:152 | a run of 1 to 4300 ASCII digits parses to the number it writes |
| PyInt.TooManyDigitsRefused | advanced_features_and_security/LibraryProject/bookshelf/views.py:151-157 | a run of more than 4300 digits makes `int()` fail, whatever its value |
| PyInt.NoDigitNoNumber | advanced_features_and_security/LibraryProject/bookshelf/views.py:151-157 | text without a digit, such as `invalid`, makes `int()` fail |
| SqlPatterns.UpdateSetNeedsTwoSpaces | advanced_features_and_security/LibraryProject/bookshelf/forms.py:158 | `update set` with one space does not match, because the pattern needs whitespace on both sides of `.*` |
| SqlPatterns.UpdateSetWithTwoSpaces | advanced_features_and_security/LibraryProject/bookshelf/forms.py:158 | `update  set` with two spaces does match |
| Dates.Ordinal | api_project/book/models.py:33 | the day number of a date lies within its year's span of day numbers |
| Dates.OrdinalRange | api_project/book/models.py:33 | every date's day number lies between 1 and that of 9999-12-31 |
| Dates.OrdinalMonotone | api_project/book/models.py:34 | an earlier date has a smaller day number |
| Dates.OrdinalOrder | api_project/book/models.py:34 | comparing dates and comparing their day numbers agree in both directions, equality included |
| Dates.CompletedYears | advanced_features_and_security/LibraryProject/bookshelf/forms.py:375 | the age is the number of birthday anniversaries reached: the age-th has passed by today and the next has not |
| Dates.CompletedYearsUnique | advanced_features_and_security/LibraryProject/bookshelf/forms.py:375 | that anniversary property determines the age uniquely |
| BookshelfForms.CleanTextField | advanced_features_and_security/LibraryProject/bookshelf/forms.py:126-166 | names the outcome of every branch. Missing or empty input gives the required message, and a sanitized value over the limit the too-long message. A value that sanitizes to nothing gives the empty message. Within the limit, the dangerous-content message comes exactly for a dangerous value, and any other value is accepted. So the angle-bracket branch is unreachable. An accepted value unescapes back to the stripped input |
| BookshelfForms.CleanTitle | advanced_features_and_security/LibraryProject/bookshelf/forms.py:126-166 | a title is accepted exactly when it is given and its sanitized form is 1 to 200 characters and harmless. It is returned sanitized, and the HTML-tag message never occurs |
| BookshelfForms.CleanAuthor | advanced_features_and_security/LibraryProject/bookshelf/forms.py:168-208 | an author is accepted exactly when it is given and its sanitized form is 1 to 100 characters and harmless. It is returned sanitized, and the HTML-tag message never occurs |
| BookshelfForms.WhitespaceTitleIsEmpty | advanced_features_and_security/LibraryProject/bookshelf/forms.py:134-146 | a non-empty whitespace-only title passes the required check and is refused as empty after stripping |
| BookshelfForms.EscapedTitleTooLong | advanced_features_and_security/LibraryProject/bookshelf/forms.py:139-143 | a 200-character title holding `&` is refused as too long, because the limit is measured after escaping |
| BookshelfForms.EscapedAuthorTooLong | advanced_features_and_security/LibraryProject/bookshelf/forms.py:181-185 | a 100-character author holding `&` is refused as too long |
| BookshelfForms.MarkerSurvivesSanitize | advanced_features_and_security/LibraryProject/bookshelf/forms.py:138-139 | a comment marker in the raw input is still present after stripping and escaping |
| BookshelfForms.MarkerRejected | advanced_features_and_security/LibraryProject/bookshelf/forms.py:153-164 | any input holding `--`, `/*` or `*/` is refused, with the dangerous-content message once it fits the limit |
| BookshelfForms.CleanPublicationYear | advanced_features_and_security/LibraryProject/bookshelf/forms.py:210-235 | a missing year gives the required message, and text that `int()` rejects the number message. For an integer, or text `int()` reads, the result depends on the number: below 1000 gives "1000 or later", above 2100 gives "2100 or earlier", and otherwise that number is returned |
| BookshelfForms.CheckYearRange | advanced_features_and_security/LibraryProject/bookshelf/forms.py:228-235 | below 1000 gives the "1000 or later" message and above 2100 the "2100 or earlier" one. The inclusive range 1000..2100 is accepted with the value kept |
| BookshelfForms.CleanBookForm | advanced_features_and_security/LibraryProject/bookshelf/forms.py:237-260 | there is a required error for each falsy field, in both directions, and the identical-fields error exactly when both texts are given and equal ignoring case. No other error appears, none appears twice, they come in field order with the form error last, and a valid form records none |
| BookshelfForms.TextYearAsNumber | advanced_features_and_security/LibraryProject/bookshelf/forms.py:222-226 | a year given as the decimal text of `n` is cleaned exactly as the integer `n`, for every `n` of at most 4300 digits |
| BookshelfForms.SeparatorYearRefused | advanced_features_and_security/LibraryProject/bookshelf/forms.py:222-226 | the year text `"\x1c2023"` gives the number message |
| BookshelfForms.CleanEmail | advanced_features_and_security/LibraryProject/bookshelf/forms.py:344-364 | a missing or empty email gives the required message. Over 254 characters after stripping gives the too-long message, and an address already taken gives the exists message. Otherwise the stripped, lowered input is accepted |
| BookshelfForms.CleanEmailIdempotent | advanced_features_and_security/LibraryProject/bookshelf/forms.py:344-364 | cleaning an accepted non-empty address again, against the same taken set, gives the same address |
| BookshelfForms.CleanDateOfBirth | advanced_features_and_security/LibraryProject/bookshelf/forms.py:366-384 | the date is accepted exactly when it is absent or 15 to 120 whole years old, and is returned unchanged. Under 15 gives the too-young message and over 120 the invalid-date message |
| BookshelfForms.DayBeforeFifteenthBirthday | advanced_features_and_security/LibraryProject/bookshelf/forms.py:375-379 | on 2026-10-10, a date of birth of 2011-10-11 is refused and one of 2011-10-10 is accepted |
| BookshelfForms.CleanQuery | advanced_features_and_security/LibraryProject/bookshelf/forms.py:460-487 | a missing query is accepted as empty. A given query is accepted exactly when its sanitized form is at most 200 characters and matches none of the four patterns, and is then returned sanitized. Too long gives the length message, and a dangerous query that fits gives the invalid-characters message |
| BookshelfForms.QueryMarkerRejected | advanced_features_and_security/LibraryProject/bookshelf/forms.py:476-485 | any search query holding `--`, `/*` or `*/` is refused |
| BookshelfViews.Field | advanced_features_and_security/LibraryProject/bookshelf/views.py:123-125 | a missing POST field reads as the empty string, a present one as its value |
| BookshelfViews.CreateFromPost | advanced_features_and_security/LibraryProject/bookshelf/views.py:123-170 | a missing or whitespace-only title is refused as required. A created book needs all three fields present; its title and author are the escaped stripped fields, within the limits before escaping, and its year is what `int()` reads from the stripped year field |
| BookshelfViews.CreateChecks | advanced_features_and_security/LibraryProject/bookshelf/views.py:127-170 | a created book has the escaped title and author and the parsed year in range, and its unescaped fields were within the limits |
| BookshelfViews.CreateChecksOrder | advanced_features_and_security/LibraryProject/bookshelf/views.py:127-148 | each text-field message comes exactly when the earlier checks passed and its own failed |
| BookshelfViews.CreateChecksYearOrder | advanced_features_and_security/LibraryProject/bookshelf/views.py:150-158 | the number and range messages, and acceptance, each come exactly in their case once the text checks pass |
| BookshelfViews.BookCreateView | advanced_features_and_security/LibraryProject/bookshelf/views.py:94-193 | without the permission the result is 403. A permitted GET shows the empty form, and any method other than GET or POST gets 405. A non-POST creates nothing. Exactly one book is appended, precisely when a permitted POST passes the checks. A failed check shows its message and leaves the catalog unchanged |
| BookshelfViews.LengthCheckedBeforeEscape | advanced_features_and_security/LibraryProject/bookshelf/views.py:141-166 | a 200-character title holding `<` passes the view and is stored as 203 characters |
| BookshelfViews.EmptyTitleRejected | advanced_features_and_security/LibraryProject/security_tests.py:259-261 | the empty title case shows "Title is required." and creates nothing |
| BookshelfViews.LongTitleRejected | advanced_features_and_security/LibraryProject/security_tests.py:264-266 | the 300-character title case is refused as too long |
| BookshelfViews.InvalidYearRejected | advanced_features_and_security/LibraryProject/security_tests.py:269-271 | the year `invalid` is refused as not a number |
| BookshelfViews.OutOfRangeYearRejected | advanced_features_and_security/LibraryProject/security_tests.py:274-276 | the year 3000 is refused as out of range |
| BookshelfViews.HugeYearRejected | advanced_features_and_security/LibraryProject/bookshelf/views.py:150-158 | a year of 5000 digits is refused as not a number, because `int()` stops at 4300 digits |
| BookshelfViews.ValidBookCreated | advanced_features_and_security/LibraryProject/security_tests.py:279-281 | the valid input creates exactly that book and redirects |
| BookshelfViews.EditedBook | advanced_features_and_security/LibraryProject/bookshelf/views.py:205-207 | each posted field replaces the stored one verbatim and an absent one keeps its value; the edit fails only when a posted year is not an integer |
| BookshelfViews.BookEditView | advanced_features_and_security/LibraryProject/bookshelf/views.py:196-210 | without the permission the result is 403, and an unknown id gives 404. A non-POST shows the form. Only the edited book can change, and only on a permitted POST for an existing id with a readable year; it then holds the edited values. An unreadable year gives 500 with the catalog unchanged |
| BookshelfViews.SeparatorYearBreaksEdit | advanced_features_and_security/LibraryProject/bookshelf/views.py:207 | a year `"\x1c2023"` gives a 500 and leaves the catalog unchanged |
| BookshelfViews.EditSkipsValidation | advanced_features_and_security/LibraryProject/bookshelf/views.py:205-208 | editing stores a 300-character title and the year 3000 as given |
| BookshelfViews.HugeYearBreaksEdit | advanced_features_and_security/LibraryProject/bookshelf/views.py:207 | the same year makes the edit view fail with a server error and leaves the catalog unchanged |
| AccountPermissions.IsAuthenticatedOrReadOnly | social_media_api/accounts/permissions.py:6-9 | safe methods are always granted; other methods are granted exactly to an authenticated user |
| AccountPermissions.IsOwnerOrReadOnly | social_media_api/accounts/permissions.py:13-20 | safe methods are always granted. An unsafe one is granted only when the object is the requesting account itself |
| AccountPermissions.OwnerGrantsWithinAuthenticated | social_media_api/accounts/permissions.py:6-20 | whatever the owner check or the profile decision grants, the authenticated-or-read-only check grants too |
| AccountPermissions.AuthorDeniedOwnPost | social_media_api/accounts/permissions.py:18-20 | an author's unsafe request on their own post or comment is denied |
| AccountPermissions.IsOwnerOrReadOnlyByAuthor | social_media_api/accounts/permissions.py:18-20 | the check as the comment describes it grants every safe method |
| AccountPermissions.ByAuthorGrantsOwnerOnly | social_media_api/accounts/permissions.py:18-20 | under that check an unsafe request is granted exactly to the object's owner |
| AccountPermissions.AgreeOnAccounts | social_media_api/accounts/permissions.py:20 | on account objects the written and the intended checks agree |
| AccountPermissions.ProfileAllowed | social_media_api/accounts/views.py:64-67 | every profile request needs an authenticated user. An unsafe request on a profile is granted exactly to that profile's owner |
| ApiViews.Permits | advanced-api-project/api/views.py:13-15 | `AllowAny` grants everyone; `IsAuthenticated` grants exactly the authenticated |
| ApiViews.PermissionTable | advanced-api-project/api/views.py:12-51 | for every method and caller, on each view: an authenticated caller passes; anyone else passes the list and detail views only for GET, the create view except for POST, PUT, PATCH and DELETE, the update view except for PUT and DELETE, and the delete view except for DELETE |
| ApiViews.AnonymousCreateRefused | advanced-api-project/api/views.py:21-23 | an anonymous or missing user cannot POST to the create view |
| ApiViews.GetOpenEverywhere | advanced-api-project/api/views.py:12-51 | every view lets an anonymous GET through |
| ApiViews.DeleteGuardedEverywhere | advanced-api-project/api/views.py:12-51 | every view demands authentication for DELETE |
| ApiViews.GuardsNest | advanced-api-project/api/views.py:12-51 | the guarded methods nest from the delete view to the update, create and list views; the list and detail views agree |
| ApiViews.ReadViewsGuardHeadAndOptions | advanced-api-project/api/views.py:12-33 | the list and detail views demand authentication for HEAD and OPTIONS, so an anonymous HEAD is refused |
| ApiViews.UpdateLeavesPatchOpen | advanced-api-project/api/views.py:39-42 | the update view lets any PATCH through the permission check |
| ApiViews.IntendedUpdateGuardsWrites | advanced-api-project/api/views.py:39-42 | under the corrected policy, PUT, PATCH and DELETE are granted exactly to authenticated users |
| ApiViews.DeleteViewHandle | advanced-api-project/api/views.py:44-51 | only an authenticated DELETE of an existing key deletes, and it removes exactly that key. An authenticated DELETE of a missing key gets 404, an unauthenticated DELETE 401, and other methods 200 or 405. Nothing else changes the store |
| ApiViews.AnonymousDeleteRefused | advanced-api-project/api/test_views.py:44-50 | an anonymous DELETE gets 401 and the book count is unchanged |
| SocialAccounts.WithUser | social_media_api/accounts/serializers.py:28-29 | the result holds every submitted field plus `user` bound to the user |
| SocialAccounts.ValidateLogin | social_media_api/accounts/serializers.py:13-29 | the required message comes exactly when a field is missing or empty. The invalid message comes exactly when the name is unknown or the password check fails. Success returns the data with the looked-up user |
| SocialAccounts.LoginHidesWhichPartFailed | social_media_api/accounts/serializers.py:18-24 | every refusal of a complete submission is the same, whatever the user table and password check |
| SocialAccounts.ValidateBirthDate | social_media_api/accounts/models.py:13-21 | an absent date is accepted and a future date refused. A date is accepted exactly when it is not in the future and at least 13 years earlier by year number |
| SocialAccounts.RecentYearsRefused | social_media_api/accounts/models.py:18-21 | any past date within the last twelve calendar years, earlier this year included, is refused as too young |
| SocialAccounts.TwelveYearOldAccepted | social_media_api/accounts/models.py:19-21 | born 2013-12-31, on 2026-01-01 a user with 12 completed years is accepted |
| SocialAccounts.ValidateBirthDateByAge | social_media_api/accounts/models.py:17-21 | the corrected check accepts exactly absent dates and dates with at least 13 completed years |
| SocialAccounts.ByAgeIsTheThirteenthBirthday | social_media_api/accounts/models.py:17-21 | the corrected check accepts exactly from the thirteenth birthday on. It is stricter than the written one, and the two differ only in the year of that birthday, before it |
| BlogForms.CleanPostTitle | django_blog/blog/forms.py:65-69 | a missing or empty title is refused, and any other is returned unchanged |
| BlogForms.CleanPostContent | django_blog/blog/forms.py:71-77 | missing or empty content gives the empty message, and 1 to 9 characters the length message. Content is accepted exactly when it has at least 10 characters, and is returned unchanged |
| BlogForms.ContentCheckStricter | django_blog/blog/forms.py:65-77 | a text the content check accepts passes the title check with the same value, and a text the title check refuses gets the empty-content message |
| BlogForms.CleanedPostIsFixed | django_blog/blog/forms.py:65-77 | cleaning an accepted title or content again gives the same result |
| BlogForms.CleanedEmail | django_blog/blog/forms.py:40-45 | the result is the cleaned email whenever there is one, and never the uniqueness message |
| BlogForms.TakenEmailPasses | django_blog/blog/forms.py:40-45 | an email already in use is returned as is, exactly as with no other users |
| BlogForms.RegisterSave | django_blog/blog/forms.py:23-30 | email, first and last name come from the cleaned data and the rest from the parent form's user. The user is appended to the table exactly on commit |
| BlogForms.SaveLaterIsSaveNow | django_blog/blog/forms.py:23-30 | saving without commit and storing the user later is the same as saving with commit |
| ApiSerializers.ValidatePublicationYear | advanced-api-project/api/serializers.py:12-15 | a date is refused exactly when its year is later than today's, and is otherwise returned unchanged |
| ApiSerializers.AcceptsRestOfThisYear | advanced-api-project/api/serializers.py:13-15 | every date up to today is accepted, and so is a later date of the current year |
| ApiSerializers.RefusedIsFuture | advanced-api-project/api/serializers.py:13-14 | every refused date lies in the future |
| BookRecent.IsRecent | api_project/book/models.py:30-34 | the subtraction overflows exactly when today is within the first 1825 days of the calendar. Otherwise the book is recent exactly when it was published at most 1825 days before today |
| BookRecent.FutureIsRecent | api_project/book/models.py:34 | a book published today or later is recent |
| BookRecent.RecentIsMonotone | api_project/book/models.py:34 | a book published after a recent one is recent |
| BookRecent.LeapDaysShrinkTheWindow | api_project/book/models.py:33 | on 2024-03-01, books from 2019-03-01 and 2019-03-02 are not recent and one from 2019-03-03 is, because the window is 1825 days rather than five calendar years |

Four definitions carry no contract of their own, and the rows above state what
follows from them:

- `BookshelfForms.Sanitize` is `escape(value.strip())` (forms.py:138-139 and the same lines of `clean_author`).
- `SqlPatterns.FieldDanger` is the disjunction of the six patterns of `clean_title` and `clean_author` (forms.py:153-160 and 195-202). Each `\s+` is one or more whitespace characters, `.*` any run without a line break, and `(?i)` ASCII case folding.
- `SqlPatterns.QueryDanger` is the same for the four patterns of `clean_query` (forms.py:476-481).
- `PyInt.ParseInt` reads `IntStrip(text)`: one optional sign, then a digit string as `IsDigitString` defines it (digits, with single underscores only between digits), of at most 4300 digits by `DigitCount`. Anything else is the `ValueError`.

`ApiViews.PolicyFor` has no contract of its own. It is a total function from view
and method to exactly one of `AllowAny` or `IsAuthenticated`. `ApiViews.PermissionTable`
states its whole table through `ApiViews.Permits`, and the other lemmas single out
its consequences.

## Left out

- Framework field validation is not modelled. `CharField(max_length=...)`, `IntegerField`, `EmailField` and `DateField` parsing run field by field, each before that field's `clean_<name>`, which takes the value left in `cleaned_data`.
- `BookForm.save` is not modelled, because no modelled view calls it. It strips and escapes the already escaped title and author a second time (forms.py:271-275), so a title `&` would be stored as `&amp;amp;`.
- `CustomUserCreationForm.save` is not modelled: it copies the cleaned email onto the user and writes it, which is persistence.
- The validators `BookForm.__init__` adds are not modelled (forms.py:92-117). They are the `^[^<>]*$` pattern check on title and author and the 1000..2100 bounds on the year. They run with the field's own validation before `clean_title`, `clean_author` and `clean_publication_year`, so a title holding `<` never reaches `clean_title`. The `clean_*` functions here describe those methods on the values they receive.
- The database `max_length` of the stored book is not modelled. `BookshelfViews.LengthCheckedBeforeEscape` shows the view can hand it a 203-character title, but what the database then does is outside the model.
- The exception handlers of `book_create_view` are not modelled. No modelled step raises `ValidationError` or another exception there.
- CSRF, `messages`, logging, rendering and redirects are not modelled; a response is represented only by its kind.
- `PyText.Lower` is not full Unicode lowering: it lowers ASCII letters only, as the `(?i)` flag is also modelled.
- `PyInt.ParseInt` accepts only ASCII digits, while Python's `int()` also accepts other Unicode decimal digits. It uses the default digit limit of 4300; a limit changed with `sys.set_int_max_str_digits`, and Python versions without any limit, are not modelled.
- `BookshelfViews.BookCreateView` assigns primary keys by position: the book with key `k` is at index `k - 1`, and deletion is not modelled.
- `BookshelfViews.BookEditView` treats the uncaught `ValueError` of `int()` as a 500 response. It does not model the debug page.
- `ApiViews.DeleteViewHandle` assumes token authentication, whose challenge header turns an unauthenticated refusal into 401 rather than 403. It also returns no body.
- The `view` argument of both permission classes is left out, because neither class reads it.
- `BookSerializer.validate_publication_year` is kept as written. DRF calls such a hook only for a field named `publication_year`, which the serializer's field list does not contain.
- `UserProfileForm.cleaned_email` is kept as written. Django calls only `clean_<field>` methods, so nothing calls it.
- The likes, follows, notifications, posts and comments views are not part of this model. The posts and comments viewsets use permission classes from `posts.permissions`, which is not part of this model either. The account permission classes modelled here are used only by `ProfileViewSet`, on user objects.
- The `get_queryset` filter of `ProfileViewSet` is not modelled. `AccountPermissions.ProfileAllowed` decides on the profile being asked for, and the query that finds that profile is ORM work.
- Middleware, management commands, admin and URL configuration are not modelled.

## Findings

| source | as written | input that shows it | evidently intended | confidence | as-written member | corrected member |
|---|---|---|---|---|---|---|
| social_media_api/accounts/permissions.py:20 | unsafe methods are granted when `obj == request.user` | the author (id 7) of post 1 sends PUT on that post: denied | grant the object's author, as the comment above the line says. No view in the repository applies this class to a post or comment: `ProfileViewSet` uses it only on accounts, where it is right | medium, not executed | AccountPermissions.AuthorDeniedOwnPost | AccountPermissions.ByAuthorGrantsOwnerOnly |
| advanced-api-project/api/views.py:40 | `UpdateView` demands authentication for PUT and DELETE only | an anonymous PATCH to the update view passes the permission check | authentication for every modifying method, PATCH included | medium, not executed | ApiViews.UpdateLeavesPatchOpen | ApiViews.IntendedUpdateGuardsWrites |
| social_media_api/accounts/models.py:19 | age is today's year minus the birth year. No code in the repository calls `validate_birth_date`, so it does not reach registration | born 2013-12-31, checked on 2026-01-01: 12 completed years, accepted | at least 13 completed years, as the comment "age is less than 13 years" says | high, not executed | SocialAccounts.TwelveYearOldAccepted | SocialAccounts.ByAgeIsTheThirteenthBirthday |

=== FILE: account_permissions.dfy ===
/**
 The custom permission classes of the social media API's accounts
 application, and the permission decision of `ProfileViewSet`, which
 combines `IsOwnerOrReadOnly` with DRF's `IsAuthenticated`.

 Neither class reads its `view` argument, so the model leaves it out.
 */
module AccountPermissions {
  import opened Wrappers
  import opened Drf

  /** The objects the permissions are asked about: an account, a post, a comment.
      Each carries its primary key; posts and comments carry their author's. */
  datatype Resource =
    | UserObject(id: nat)
    | PostObject(id: nat, author: nat)
    | CommentObject(id: nat, post: nat, author: nat)

  /** Django's `Model.__eq__` between a stored object and `request.user`: the same
      concrete model and the same primary key. Only an account can equal a user. */
  predicate SameObject(obj: Resource, user: Option<Principal>) {
    obj.UserObject? && user.Some? && user.value.Account? && user.value.id == obj.id
  }

  /** `IsAuthenticatedOrReadOnly.has_permission`. */
  function IsAuthenticatedOrReadOnly(verb: string, user: Option<Principal>): (granted: bool)
    ensures verb in SafeMethods ==> granted
    ensures verb !in SafeMethods ==> (granted <==> user.Some? && user.value.Account?)
  {
    if verb in SafeMethods then true else Authenticated(user)
  }

  /** `IsOwnerOrReadOnly.has_object_permission`, as written: it compares the object
      itself, not its author, with the requesting user. */
  function IsOwnerOrReadOnly(verb: string, user: Option<Principal>, obj: Resource): (granted: bool)
    ensures verb in SafeMethods ==> granted
    ensures verb !in SafeMethods && granted ==> obj.UserObject? && Authenticated(user) && user.value.id == obj.id
  {
    if verb in SafeMethods then true else SameObject(obj, user)
  }

  /** The owner check grants nothing the authenticated-or-read-only check refuses,
      and neither does the profile decision. */
  lemma OwnerGrantsWithinAuthenticated(verb: string, user: Option<Principal>, obj: Resource, profile: Option<nat>)
    ensures IsOwnerOrReadOnly(verb, user, obj) ==> IsAuthenticatedOrReadOnly(verb, user)
    ensures ProfileAllowed(verb, user, profile) ==> IsAuthenticatedOrReadOnly(verb, user)
  {
  }

  /** Hence no unsafe request on a post or a comment is ever granted, not even to its author. */
  lemma AuthorDeniedOwnPost(verb: string, author: nat, postId: nat, commentId: nat)
    requires verb !in SafeMethods
    ensures !IsOwnerOrReadOnly(verb, Some(Account(author)), PostObject(postId, author))
    ensures !IsOwnerOrReadOnly(verb, Some(Account(author)), CommentObject(commentId, postId, author))
  {
  }

  /** The owner of an object: an account owns itself; posts and comments are owned by their author. */
  function Owner(obj: Resource): nat {
    match obj
    case UserObject(id) => id
    case PostObject(_, author) => author
    case CommentObject(_, _, author) => author
  }

  /** The ownership check the class's comment describes: write access for the object's author. */
  function IsOwnerOrReadOnlyByAuthor(verb: string, user: Option<Principal>, obj: Resource): (granted: bool)
    ensures verb in SafeMethods ==> granted
  {
    if verb in SafeMethods then true else Authenticated(user) && user.value.id == Owner(obj)
  }

  /** The intended check grants an unsafe request exactly to the object's owner. */
  lemma ByAuthorGrantsOwnerOnly(verb: string, user: Option<Principal>, obj: Resource)
    requires verb !in SafeMethods
    ensures IsOwnerOrReadOnlyByAuthor(verb, user, obj) <==> user == Some(Account(Owner(obj)))
  {
  }

  /** On account objects the written check and the intended one agree. */
  lemma AgreeOnAccounts(verb: string, user: Option<Principal>, id: nat)
    ensures IsOwnerOrReadOnly(verb, user, UserObject(id)) == IsOwnerOrReadOnlyByAuthor(verb, user, UserObject(id))
  {
  }

  /** `ProfileViewSet` (`permission_classes = [IsOwnerOrReadOnly, IsAuthenticated]`):
      every request needs an authenticated user (`IsOwnerOrReadOnly` inherits the
      permissive `has_permission`); a request on a profile object also needs the
      object check. `profile` is `None` for the list and create actions. The
      class is the one imported from the accounts application, which shadows
      the earlier import from the posts application. */
  function ProfileAllowed(verb: string, user: Option<Principal>, profile: Option<nat>): (granted: bool)
    ensures granted ==> Authenticated(user)
    ensures profile.Some? && verb !in SafeMethods ==> (granted <==> user == Some(Account(profile.value)))
    ensures profile.None? || verb in SafeMethods ==> (granted <==> Authenticated(user))
  {
    Authenticated(user) && (profile.None? || IsOwnerOrReadOnly(verb, user, UserObject(profile.value)))
  }
}

=== FILE: api_serializers.dfy ===
/**
 `BookSerializer.validate_publication_year` of the advanced API project, with
 the current date as a parameter.
 */
module ApiSerializers {
  import opened Wrappers
  import opened Dates

  /** A date is refused when its year is later than the current one; otherwise it is
      returned unchanged. Only the year is compared. */
  function ValidatePublicationYear(value: Date, today: Date): (r: Result<Date>)
    ensures r.Err? <==> value.year > today.year
    ensures r.Err? ==> r.msg == "Publication year cannot be in the future."
    ensures r.Ok? ==> r.value == value
  {
    if value.year > today.year then Err("Publication year cannot be in the future.") else Ok(value)
  }

  /** No date up to today is refused, and neither is a later date of the current year. */
  lemma AcceptsRestOfThisYear(value: Date, today: Date)
    requires !Before(today, value) || value.year == today.year
    ensures ValidatePublicationYear(value, today) == Ok(value)
  {
  }

  /** Every refused date lies in the future. */
  lemma RefusedIsFuture(value: Date, today: Date)
    requires ValidatePublicationYear(value, today).Err?
    ensures Before(today, value)
  {
  }
}

=== FILE: api_views.dfy ===
/**
 The `get_permissions` methods of the generic book views of the advanced API
 project: each maps the request method to one permission class.
 */
module ApiViews {
  import opened Wrappers
  import opened Drf

  datatype Policy = AllowAny | IsAuthenticated

  datatype View = ListView | CreateView | DetailView | UpdateView | DeleteView

  /** `get_permissions` of each view, as written. */
  function PolicyFor(view: View, verb: string): Policy {
    match view
    case ListView => if verb == "GET" then AllowAny else IsAuthenticated
    case CreateView => if verb in {"POST", "PUT", "DELETE", "PATCH"} then IsAuthenticated else AllowAny
    case DetailView => if verb == "GET" then AllowAny else IsAuthenticated
    case UpdateView => if verb in {"PUT", "DELETE"} then IsAuthenticated else AllowAny
    case DeleteView => if verb == "DELETE" then IsAuthenticated else AllowAny
  }

  /** `has_permission` of the two DRF classes. */
  function Permits(policy: Policy, user: Option<Principal>): (granted: bool)
    ensures policy == AllowAny ==> granted
    ensures policy == IsAuthenticated ==> (granted <==> Authenticated(user))
  {
    match policy
    case AllowAny => true
    case IsAuthenticated => Authenticated(user)
  }

  /** The whole table: on each view, who passes the permission check for each method.
      An authenticated user passes everywhere; anyone else exactly on the open methods. */
  lemma PermissionTable(verb: string, user: Option<Principal>)
    ensures Permits(PolicyFor(View.ListView, verb), user) <==> verb == "GET" || Authenticated(user)
    ensures Permits(PolicyFor(View.DetailView, verb), user) <==> verb == "GET" || Authenticated(user)
    ensures Permits(PolicyFor(View.CreateView, verb), user)
        <==> !(verb == "POST" || verb == "PUT" || verb == "PATCH" || verb == "DELETE") || Authenticated(user)
    ensures Permits(PolicyFor(View.UpdateView, verb), user) <==> !(verb == "PUT" || verb == "DELETE") || Authenticated(user)
    ensures Permits(PolicyFor(View.DeleteView, verb), user) <==> verb != "DELETE" || Authenticated(user)
  {
  }

  /** An anonymous POST to the create view is refused. */
  lemma AnonymousCreateRefused()
    ensures !Permits(PolicyFor(View.CreateView, "POST"), Some(AnonymousUser))
    ensures !Permits(PolicyFor(View.CreateView, "POST"), None)
  {
  }

  /** An anonymous GET passes the permission check of every view. */
  lemma GetOpenEverywhere(view: View, user: Option<Principal>)
    ensures PolicyFor(view, "GET") == AllowAny
    ensures Permits(PolicyFor(view, "GET"), user)
  {
  }

  /** DELETE needs an authenticated user on every view. */
  lemma DeleteGuardedEverywhere(view: View, user: Option<Principal>)
    ensures Permits(PolicyFor(view, "DELETE"), user) <==> Authenticated(user)
  {
  }

  /** The guarded methods nest: whatever the delete view guards the update view guards,
      whatever that guards the create view guards, and whatever that guards the list and
      detail views guard; the list and detail views agree on every method. */
  lemma GuardsNest(verb: string)
    ensures PolicyFor(View.DeleteView, verb) == IsAuthenticated ==> PolicyFor(View.UpdateView, verb) == IsAuthenticated
    ensures PolicyFor(View.UpdateView, verb) == IsAuthenticated ==> PolicyFor(View.CreateView, verb) == IsAuthenticated
    ensures PolicyFor(View.CreateView, verb) == IsAuthenticated ==> PolicyFor(View.ListView, verb) == IsAuthenticated
    ensures PolicyFor(View.ListView, verb) == PolicyFor(View.DetailView, verb)
  {
  }

  /** The list and detail views open only GET: HEAD and OPTIONS need authentication too. */
  lemma ReadViewsGuardHeadAndOptions(view: View)
    requires view == View.ListView || view == View.DetailView
    ensures PolicyFor(view, "HEAD") == IsAuthenticated && PolicyFor(view, "OPTIONS") == IsAuthenticated
    ensures !Permits(PolicyFor(view, "HEAD"), Some(AnonymousUser))
  {
  }

  /** The update view leaves PATCH open: an anonymous partial update passes the permission check. */
  lemma UpdateLeavesPatchOpen(user: Option<Principal>)
    ensures PolicyFor(View.UpdateView, "PATCH") == AllowAny
    ensures Permits(PolicyFor(View.UpdateView, "PATCH"), user)
  {
  }

  /** The update view as evidently intended: every modifying method needs authentication. */
  function UpdatePolicyIntended(verb: string): Policy {
    if verb in {"PUT", "PATCH", "DELETE"} then IsAuthenticated else AllowAny
  }

  lemma IntendedUpdateGuardsWrites(verb: string, user: Option<Principal>)
    requires verb in {"PUT", "PATCH", "DELETE"}
    ensures Permits(UpdatePolicyIntended(verb), user) <==> Authenticated(user)
  {
  }

  /** The status of a response and the stored books (primary key to title). */
  datatype Response = Response(status: int, books: map<nat, string>)

  /** `DeleteView` handling a request for the book with primary key `id`. DRF checks
      permissions before dispatching on the method; a refused caller who is not
      authenticated gets 401 (token authentication supplies a challenge header).
      `DestroyAPIView` then answers DELETE (204, or 404 for an unknown key) and
      OPTIONS, and 405 to everything else, HEAD included, as it has no GET. */
  function DeleteViewHandle(verb: string, user: Option<Principal>, books: map<nat, string>, id: nat): (r: Response)
    ensures r.status != 204 ==> r.books == books
    ensures r.status == 204 <==> verb == "DELETE" && Authenticated(user) && id in books
    ensures r.status == 204 ==> r.books == books - {id}
    ensures verb == "DELETE" && !Authenticated(user) ==> r.status == 401
    ensures verb == "DELETE" && Authenticated(user) && id !in books ==> r.status == 404
    ensures verb != "DELETE" ==> r.status == (if verb == "OPTIONS" then 200 else 405)
  {
    if !Permits(PolicyFor(View.DeleteView, verb), user) then
      Response(401, books)
    else if verb == "DELETE" then
      if id in books then Response(204, books - {id}) else Response(404, books)
    else if verb == "OPTIONS" then Response(200, books)
    else Response(405, books)
  }

  /** The API test: an unauthenticated DELETE is refused with 401 and the book count is unchanged. */
  lemma AnonymousDeleteRefused(books: map<nat, string>, id: nat)
    ensures DeleteViewHandle("DELETE", Some(AnonymousUser), books, id).status == 401
    ensures |DeleteViewHandle("DELETE", Some(AnonymousUser), books, id).books| == |books|
  {
  }
}

=== FILE: blog_forms.dfy ===
/**
 The blog's forms: the `PostForm` field checks, `UserProfileForm.cleaned_email`
 and `RegisterForm.save`.

 The form's `cleaned_data` is a map from field name to text; a missing entry
 plays the part of `None` for `.get` and of `KeyError` for indexing.
 */
module BlogForms {
  import opened Wrappers

  const MinContentLength := 10

  /** `PostForm.clean_title`. */
  function CleanPostTitle(title: Option<string>): (r: Result<string>)
    ensures r.Err? <==> title.None? || title.value == ""
    ensures r.Err? ==> r.msg == "Title cannot be empty."
    ensures r.Ok? ==> r.value == title.value
  {
    if title.None? || title.value == "" then Err("Title cannot be empty.") else Ok(title.value)
  }

  /** `PostForm.clean_content`. */
  function CleanPostContent(content: Option<string>): (r: Result<string>)
    ensures content.None? || content.value == "" ==> r == Err("Content cannot be empty.")
    ensures r.Ok? <==> content.Some? && |content.value| >= MinContentLength
    ensures content.Some? && 0 < |content.value| < MinContentLength ==> r == Err("Content must be at least 10 characters long.")
    ensures r.Ok? ==> r.value == content.value
  {
    if content.None? || content.value == "" then Err("Content cannot be empty.")
    else if |content.value| < MinContentLength then Err("Content must be at least 10 characters long.")
    else Ok(content.value)
  }

  /** The content check is stricter than the title check: a text it accepts
      passes the title check too, with the same value. */
  lemma ContentCheckStricter(text: Option<string>)
    ensures CleanPostContent(text).Ok? ==> CleanPostTitle(text) == CleanPostContent(text)
    ensures CleanPostTitle(text).Err? ==> CleanPostContent(text) == Err("Content cannot be empty.")
  {
  }

  /** Both checks return fixed points: cleaning an accepted value again gives it back. */
  lemma CleanedPostIsFixed(title: Option<string>, content: Option<string>)
    ensures CleanPostTitle(title).Ok? ==> CleanPostTitle(Some(CleanPostTitle(title).value)) == CleanPostTitle(title)
    ensures CleanPostContent(content).Ok? ==> CleanPostContent(Some(CleanPostContent(content).value)) == CleanPostContent(content)
  {
  }

  /** `UserProfileForm.cleaned_email`: it returns the cleaned email at once, so the
      uniqueness check written after the return never runs. `taken` holds the emails of
      the other users; the result does not depend on it. */
  function CleanedEmail(cleanedData: map<string, string>, taken: set<string>): (r: Result<string>)
    ensures r.Ok? <==> "email" in cleanedData
    ensures r.Ok? ==> r.value == cleanedData["email"]
    ensures r != Err("This email address is already in use.")
  {
    if "email" in cleanedData then Ok(cleanedData["email"]) else Err("KeyError: 'email'")
  }

  /** An email already used by another account is returned as it is. */
  lemma TakenEmailPasses(cleanedData: map<string, string>, taken: set<string>)
    requires "email" in cleanedData && cleanedData["email"] in taken
    ensures CleanedEmail(cleanedData, taken) == Ok(cleanedData["email"])
    ensures CleanedEmail(cleanedData, taken) == CleanedEmail(cleanedData, {})
  {
  }

  /** A Django `User` as the registration form fills it in. */
  datatype Account = Account(username: string, password: string, email: string, firstName: string, lastName: string)

  /** The saved user and the user table afterwards. */
  datatype Saved = Saved(user: Account, table: seq<Account>)

  /** `RegisterForm.save`: `base` is the unsaved user the parent form builds; the three
      extra fields are copied from `cleaned_data`, and the user is stored only on `commit`. */
  function RegisterSave(base: Account, cleanedData: map<string, string>, commit: bool, table: seq<Account>): (r: Result<Saved>)
    ensures r.Ok? <==> "email" in cleanedData && "first_name" in cleanedData && "last_name" in cleanedData
    ensures r.Ok? ==> (r.value.user.email == cleanedData["email"]
                       && r.value.user.firstName == cleanedData["first_name"]
                       && r.value.user.lastName == cleanedData["last_name"])
    ensures r.Ok? ==> r.value.user.username == base.username && r.value.user.password == base.password
    ensures r.Ok? ==> r.value.table == if commit then table + [r.value.user] else table
  {
    if "email" !in cleanedData then Err("KeyError: 'email'")
    else if "first_name" !in cleanedData then Err("KeyError: 'first_name'")
    else if "last_name" !in cleanedData then Err("KeyError: 'last_name'")
    else
      var user := base.(email := cleanedData["email"], firstName := cleanedData["first_name"], lastName := cleanedData["last_name"]);
      Ok(Saved(user, if commit then table + [user] else table))
  }

  /** Saving without commit and then storing the returned user is the same as saving with commit. */
  lemma SaveLaterIsSaveNow(base: Account, cleanedData: map<string, string>, table: seq<Account>)
    requires RegisterSave(base, cleanedData, false, table).Ok?
    ensures RegisterSave(base, cleanedData, true, table).Ok?
    ensures RegisterSave(base, cleanedData, true, table).value.table
         == table + [RegisterSave(base, cleanedData, false, table).value.user]
  {
  }
}

=== FILE: book_recent.dfy ===
/**
 `Book.is_recent` of the API project: published on or after the day 1825 days
 (`365 * 5`) before today. Python's date subtraction raises `OverflowError` when
 the result would fall before 0001-01-01, which the model returns as an error.
 Dates are compared through their day numbers, which order them as Python does.
 */
module BookRecent {
  import opened Wrappers
  import opened Dates

  const WindowDays := 365 * 5

  function IsRecent(published: Date, today: Date): (r: Result<bool>)
    ensures r.Err? <==> Ordinal(today) <= WindowDays
    ensures r.Err? ==> r.msg == "date value out of range"
    ensures r.Ok? ==> (r.value <==> Ordinal(today) - Ordinal(published) <= WindowDays)
  {
    if Ordinal(today) - WindowDays < 1 then Err("date value out of range")
    else Ok(Ordinal(published) >= Ordinal(today) - WindowDays)
  }

  /** Anything published today or later counts as recent. */
  lemma FutureIsRecent(published: Date, today: Date)
    requires IsRecent(published, today).Ok?
    requires !Before(published, today)
    ensures IsRecent(published, today) == Ok(true)
  {
    OrdinalOrder(published, today);
  }

  /** Recency is upward closed: a book published later than a recent one is recent too. */
  lemma RecentIsMonotone(earlier: Date, later: Date, today: Date)
    requires IsRecent(earlier, today) == Ok(true)
    requires Before(earlier, later)
    ensures IsRecent(later, today) == Ok(true)
  {
    OrdinalMonotone(earlier, later);
  }

  /** The window is a count of days, not five calendar years: across two leap days the
      date five years back is already outside it, and only two days later is inside. */
  lemma LeapDaysShrinkTheWindow(today: Date, fiveYearsBack: Date, twoDaysLater: Date)
    requires today == CalendarDate(2024, 3, 1)
    requires fiveYearsBack == CalendarDate(2019, 3, 1) && twoDaysLater == CalendarDate(2019, 3, 3)
    ensures IsRecent(fiveYearsBack, today) == Ok(false)
    ensures IsRecent(CalendarDate(2019, 3, 2), today) == Ok(false)
    ensures IsRecent(twoDaysLater, today) == Ok(true)
  {
  }
}

=== FILE: bookshelf_forms.dfy ===
/**
 The clean methods of the bookshelf forms: `BookForm`, `CustomUserCreationForm`
 and `BookSearchForm`.

 Each `clean_*` method is a function of the value the form's field left in
 `cleaned_data` (`None` when the key is missing); a raised `ValidationError`
 is an `Err` carrying its message.
 */
module BookshelfForms {
  import opened Wrappers
  import opened PyText
  import opened Dates
  import Html
  import PyInt
  import SqlPatterns

  /** The messages one text field of `BookForm` raises, in the order of its checks. */
  datatype FieldMessages = FieldMessages(required: string, tooLong: string, empty: string, html: string, dangerous: string)

  const TitleMessages := FieldMessages(
    "Title is required.",
    "Title must be 200 characters or less.",
    "Title cannot be empty.",
    "Title cannot contain HTML tags for security reasons.",
    "Title contains potentially dangerous content.")

  const AuthorMessages := FieldMessages(
    "Author is required.",
    "Author name must be 100 characters or less.",
    "Author name cannot be empty.",
    "Author name cannot contain HTML tags for security reasons.",
    "Author name contains potentially dangerous content.")

  const TitleMaxLength := 200
  const AuthorMaxLength := 100

  /** The value a text field keeps: stripped first, then HTML-escaped. */
  function Sanitize(raw: string): string {
    Html.Escape(Strip(raw))
  }

  /** The shared body of `clean_title` and `clean_author`: a missing or empty
      value is required; otherwise the sanitized value is checked for length
      (after escaping), emptiness, angle brackets and the dangerous patterns.
      The contract names the outcome of every branch but the angle-bracket one,
      which escaping makes unreachable. */
  function CleanTextField(value: Option<string>, maxLength: nat, msgs: FieldMessages): (r: Result<string>)
    ensures value.None? || value == Some("") ==> r == Err(msgs.required)
    ensures value.Some? && value.value != "" && |Sanitize(value.value)| > maxLength ==> r == Err(msgs.tooLong)
    ensures value.Some? && value.value != "" && Sanitize(value.value) == "" ==> r == Err(msgs.empty)
    ensures r.Ok? ==> value.Some? && r.value == Sanitize(value.value)
    ensures r.Ok? ==> 1 <= |r.value| <= maxLength && !SqlPatterns.FieldDanger(r.value)
    ensures r.Ok? ==> Html.Unescape(r.value) == Strip(value.value)
    ensures value.Some? && value.value != "" && 1 <= |Sanitize(value.value)| <= maxLength ==>
      r == (if SqlPatterns.FieldDanger(Sanitize(value.value)) then Err(msgs.dangerous) else Ok(Sanitize(value.value)))
  {
    if value.None? || value.value == "" then Err(msgs.required)
    else
      var v := Sanitize(value.value);
      Html.EscapeRoundTrip(Strip(value.value));
      if |v| > maxLength then Err(msgs.tooLong)
      else if |v| < 1 then Err(msgs.empty)
      else if '<' in v || '>' in v then Err(msgs.html)
      else if SqlPatterns.FieldDanger(v) then Err(msgs.dangerous)
      else Ok(v)
  }

  /** `BookForm.clean_title`: accepted exactly when the sanitized title is 1 to
      200 characters and harmless; the HTML-tag message is never raised. */
  function CleanTitle(title: Option<string>): (r: Result<string>)
    ensures r.Ok? <==> TextGiven(title) && 1 <= |Sanitize(title.value)| <= TitleMaxLength
                       && !SqlPatterns.FieldDanger(Sanitize(title.value))
    ensures r.Ok? ==> r.value == Sanitize(title.value)
    ensures r != Err(TitleMessages.html)
  {
    CleanTextField(title, TitleMaxLength, TitleMessages)
  }

  /** `BookForm.clean_author`, the same checks with a limit of 100 characters. */
  function CleanAuthor(author: Option<string>): (r: Result<string>)
    ensures r.Ok? <==> TextGiven(author) && 1 <= |Sanitize(author.value)| <= AuthorMaxLength
                       && !SqlPatterns.FieldDanger(Sanitize(author.value))
    ensures r.Ok? ==> r.value == Sanitize(author.value)
    ensures r != Err(AuthorMessages.html)
  {
    CleanTextField(author, AuthorMaxLength, AuthorMessages)
  }

  /** A whitespace-only title passes the "required" test, then fails as empty once stripped. */
  lemma WhitespaceTitleIsEmpty(title: string)
    requires title != [] && AllWhitespace(title)
    ensures CleanTitle(Some(title)) == Err("Title cannot be empty.")
  {
  }

  /** The length limit applies to the escaped text: a 200-character title
      holding one `&` escapes to 204 characters and is rejected. */
  lemma EscapedTitleTooLong()
    ensures var raw := ['&'] + seq(199, _ => 'a');
      |raw| == TitleMaxLength && CleanTitle(Some(raw)) == Err("Title must be 200 characters or less.")
  {
    var raw := ['&'] + seq(199, _ => 'a');
    StripOfTrimmed(raw);
    Html.EscapeGrowsOnSpecial(raw, 0);
  }

  /** The same holds for the 100-character author limit and an `&`. */
  lemma EscapedAuthorTooLong()
    ensures var raw := seq(99, _ => 'a') + ['&'];
      |raw| == AuthorMaxLength && CleanAuthor(Some(raw)) == Err("Author name must be 100 characters or less.")
  {
    var raw := seq(99, _ => 'a') + ['&'];
    StripOfTrimmed(raw);
    Html.EscapeGrowsOnSpecial(raw, 99);
  }

  /** A comment marker in the raw text survives stripping and escaping. */
  lemma MarkerSurvivesSanitize(raw: string, p: string, i: int)
    requires SqlPatterns.IsMarker(p) && OccursAt(raw, p, i)
    ensures SqlPatterns.CommentMarker(Sanitize(raw))
  {
    StripKeepsOccurrence(raw, p, i);
    var t := Strip(raw);
    var j := i - StripStart(raw);
    Html.EscapeKeepsOccurrence(t, p, j);
    var e := Html.Escape(t);
    var k := |Html.Escape(t[..j])|;
    assert OccursAt(e, p, k);
    assert Contains(e, p);
  }

  /** Any title or author holding one of the comment markers (double dash, slash-star,
      star-slash) is rejected; when it is short enough, as dangerous content. */
  lemma MarkerRejected(raw: string, p: string, i: int, maxLength: nat, msgs: FieldMessages)
    requires SqlPatterns.IsMarker(p) && OccursAt(raw, p, i)
    ensures CleanTextField(Some(raw), maxLength, msgs).Err?
    ensures |Sanitize(raw)| <= maxLength ==> CleanTextField(Some(raw), maxLength, msgs) == Err(msgs.dangerous)
  {
    MarkerSurvivesSanitize(raw, p, i);
  }

  /** The value `cleaned_data` holds for `publication_year`: missing, an `int`,
      or (the branch for non-`int` values) a string handed to `int()`. */
  datatype YearValue = Missing | IntValue(n: int) | TextValue(text: string)

  const YearMin := 1000
  const YearMax := 2100
  const TooEarlyMessage := "Publication year must be 1000 or later."
  const TooLateMessage := "Publication year must be 2100 or earlier."

  /** The number a year value stands for: an `int` itself, a text through `int()`. */
  function YearNumber(year: YearValue): Option<int> {
    match year
    case Missing => None
    case IntValue(n) => Some(n)
    case TextValue(text) => PyInt.ParseInt(text)
  }

  /** `BookForm.clean_publication_year`: the required and number messages, then
      the range check on the number, which is returned unchanged. */
  function CleanPublicationYear(year: YearValue): (r: Result<int>)
    ensures year.Missing? ==> r == Err("Publication year is required.")
    ensures year.TextValue? && PyInt.ParseInt(year.text).None? ==> r == Err("Publication year must be a valid number.")
    ensures YearNumber(year).Some? ==> (r.Ok? <==> YearMin <= YearNumber(year).value <= YearMax)
    ensures YearNumber(year).Some? && YearNumber(year).value < YearMin ==> r == Err(TooEarlyMessage)
    ensures YearNumber(year).Some? && YearNumber(year).value > YearMax ==> r == Err(TooLateMessage)
    ensures r.Ok? ==> YearNumber(year) == Some(r.value) && YearMin <= r.value <= YearMax
  {
    match year
    case Missing => Err("Publication year is required.")
    case IntValue(n) => CheckYearRange(n)
    case TextValue(text) =>
      match PyInt.ParseInt(text)
      case None => Err("Publication year must be a valid number.")
      case Some(n) => CheckYearRange(n)
  }

  /** A year given as its decimal text is cleaned exactly as the number itself. */
  lemma TextYearAsNumber(n: int)
    requires |PyInt.NatToDigits(if n < 0 then -n else n)| <= PyInt.MaxStrDigits
    ensures CleanPublicationYear(TextValue(PyInt.IntToText(n))) == CleanPublicationYear(IntValue(n))
  {
    PyInt.ParseIntRoundTrip(n);
  }

  /** A year text led by an information separator is not a number to `int()`. */
  lemma SeparatorYearRefused()
    ensures CleanPublicationYear(TextValue("\U{1C}2023")) == Err("Publication year must be a valid number.")
  {
    PyInt.SeparatorNotSkipped();
  }

  /** The two range checks: below 1000, then above 2100. */
  function CheckYearRange(n: int): (r: Result<int>)
    ensures r.Ok? <==> YearMin <= n <= YearMax
    ensures r.Ok? ==> r.value == n
    ensures n < YearMin ==> r == Err(TooEarlyMessage)
    ensures n > YearMax ==> r == Err(TooLateMessage)
  {
    if n < YearMin then Err(TooEarlyMessage)
    else if n > YearMax then Err(TooLateMessage)
    else Ok(n)
  }

  /** The values `BookForm.clean` reads from `cleaned_data`. */
  datatype BookData = BookData(title: Option<string>, author: Option<string>, publicationYear: Option<int>)

  /** An error `clean` records: on a field (`add_error`) or on the whole form (the raised `ValidationError`). */
  datatype FormError = FieldError(field: string, msg: string) | NonFieldError(msg: string)

  /** Python truthiness of an optional string or number. */
  predicate TextGiven(v: Option<string>) { v.Some? && v.value != "" }
  predicate NumberGiven(v: Option<int>) { v.Some? && v.value != 0 }

  /** The four errors `BookForm.clean` can record: a "required" error on each of
      the three fields, and the form-wide error on identical title and author. */
  const TitleRequired := FieldError("title", "Title is required.")
  const AuthorRequired := FieldError("author", "Author is required.")
  const YearRequired := FieldError("publication_year", "Publication Year is required.")
  const IdenticalFields := NonFieldError("Title and author cannot be identical.")
  const KnownFormErrors := [TitleRequired, AuthorRequired, YearRequired, IdenticalFields]

  /** Where an error sits in the form's error list: the fields in declaration order, then the form-wide error. */
  function Rank(e: FormError): nat {
    match e
    case FieldError(field, _) => if field == "title" then 0 else if field == "author" then 1 else 2
    case NonFieldError(_) => 3
  }

  /** Two texts are equal ignoring ASCII case: `a.lower() == b.lower()`. */
  predicate SameIgnoringCase(a: string, b: string) {
    Lower(a) == Lower(b)
  }

  /** The error `e` when the condition holds, and no error otherwise. */
  function When(b: bool, e: FormError): (r: seq<FormError>)
    ensures |r| <= 1 && (e in r <==> b) && (forall x :: x in r ==> x == e)
  {
    if b then [e] else []
  }

  /** `BookForm.clean`: a "required" error per falsy field, in field order, then a
      form error when title and author are equal ignoring (ASCII) case. No other
      error is recorded, none twice, and a valid form records none. */
  function CleanBookForm(data: BookData): (errors: seq<FormError>)
    ensures TitleRequired in errors <==> !TextGiven(data.title)
    ensures AuthorRequired in errors <==> !TextGiven(data.author)
    ensures YearRequired in errors <==> !NumberGiven(data.publicationYear)
    ensures IdenticalFields in errors
        <==> TextGiven(data.title) && TextGiven(data.author) && SameIgnoringCase(data.title.value, data.author.value)
    ensures forall e :: e in errors ==> e in KnownFormErrors
    ensures forall i, j :: 0 <= i < j < |errors| ==> Rank(errors[i]) < Rank(errors[j])
    ensures errors == [] <==>
      TextGiven(data.title) && TextGiven(data.author) && NumberGiven(data.publicationYear)
      && !SameIgnoringCase(data.title.value, data.author.value)
    ensures |errors| <= 4
  {
    var identical := TextGiven(data.title) && TextGiven(data.author) && SameIgnoringCase(data.title.value, data.author.value);
    assert Rank(TitleRequired) == 0 && Rank(AuthorRequired) == 1 && Rank(YearRequired) == 2 && Rank(IdenticalFields) == 3;
    When(!TextGiven(data.title), TitleRequired) + When(!TextGiven(data.author), AuthorRequired)
      + When(!NumberGiven(data.publicationYear), YearRequired) + When(identical, IdenticalFields)
  }

  /** `CustomUserCreationForm.clean_email`; `taken` holds the addresses already stored. */
  function CleanEmail(email: Option<string>, taken: set<string>): (r: Result<string>)
    ensures email.None? || email == Some("") ==> r == Err("Email is required.")
    ensures r.Ok? ==> email.Some? && r.value == Lower(Strip(email.value))
    ensures r.Ok? ==> |r.value| <= 254 && r.value !in taken
    ensures email.Some? && email.value != "" && |Strip(email.value)| <= 254 && Lower(Strip(email.value)) !in taken ==> r.Ok?
    ensures email.Some? && email.value != "" && |Strip(email.value)| > 254 ==> r == Err("Email address is too long.")
    ensures email.Some? && email.value != "" && |Strip(email.value)| <= 254 && Lower(Strip(email.value)) in taken ==>
      r == Err("A user with this email already exists.")
  {
    if email.None? || email.value == "" then Err("Email is required.")
    else
      var e := Lower(Strip(email.value));
      if |e| > 254 then Err("Email address is too long.")
      else if e in taken then Err("A user with this email already exists.")
      else Ok(e)
  }

  /** Cleaning an accepted address again gives it back, as long as it is still free. */
  lemma CleanEmailIdempotent(email: Option<string>, taken: set<string>)
    requires CleanEmail(email, taken).Ok? && CleanEmail(email, taken).value != ""
    ensures CleanEmail(Some(CleanEmail(email, taken).value), taken) == CleanEmail(email, taken)
  {
    var e := CleanEmail(email, taken).value;
    assert !IsWhitespace(e[0]) && !IsWhitespace(e[|e| - 1]);
    StripOfTrimmed(e);
    assert Lower(e) == e;
  }

  /** `CustomUserCreationForm.clean_date_of_birth`: an absent date is accepted;
      a given one needs 15 to 120 completed years. */
  function CleanDateOfBirth(dob: Option<Date>, today: Date): (r: Result<Option<Date>>)
    ensures r.Ok? ==> r.value == dob
    ensures r.Ok? <==> dob.None? || 15 <= CompletedYears(dob.value, today) <= 120
    ensures dob.Some? && CompletedYears(dob.value, today) < 15 ==> r == Err("You must be at least 15 years old to register.")
    ensures dob.Some? && CompletedYears(dob.value, today) > 120 ==> r == Err("Please enter a valid date of birth.")
  {
    match dob
    case None => Ok(None)
    case Some(d) =>
      var age := CompletedYears(d, today);
      if age < 15 then Err("You must be at least 15 years old to register.")
      else if age > 120 then Err("Please enter a valid date of birth.")
      else Ok(dob)
  }

  /** Born on the birthday's eve fifteen years ago: one day short, rejected. */
  lemma DayBeforeFifteenthBirthday()
    ensures CleanDateOfBirth(Some(CalendarDate(2011, 10, 11)), CalendarDate(2026, 10, 10)).Err?
    ensures CleanDateOfBirth(Some(CalendarDate(2011, 10, 10)), CalendarDate(2026, 10, 10)).Ok?
  {
  }

  const QueryMaxLength := 200

  /** `BookSearchForm.clean_query`: a missing key reads as the empty query, which is
      returned as is; any other query is stripped, escaped and checked. A query
      is accepted exactly when its sanitized form fits and matches none of the
      four patterns, and each refusal carries its own message. */
  function CleanQuery(query: Option<string>): (r: Result<string>)
    ensures query.None? ==> r == Ok("")
    ensures query.Some? ==> (r.Ok? <==> |Sanitize(query.value)| <= QueryMaxLength && !SqlPatterns.QueryDanger(Sanitize(query.value)))
    ensures query.Some? && r.Ok? ==> r.value == Sanitize(query.value)
    ensures query.Some? && |Sanitize(query.value)| > QueryMaxLength ==> r == Err("Search query must be 200 characters or less.")
    ensures query.Some? && |Sanitize(query.value)| <= QueryMaxLength && SqlPatterns.QueryDanger(Sanitize(query.value)) ==>
      r == Err("Search query contains invalid characters.")
  {
    var q := if query.None? then "" else query.value;
    if q == "" then
      EmptyIsHarmless();
      Ok(q)
    else
      var v := Sanitize(q);
      if |v| > QueryMaxLength then Err("Search query must be 200 characters or less.")
      else if SqlPatterns.QueryDanger(v) then Err("Search query contains invalid characters.")
      else Ok(v)
  }

  /** The empty query sanitizes to itself and matches no pattern. */
  lemma EmptyIsHarmless()
    ensures Sanitize("") == "" && !SqlPatterns.QueryDanger("")
  {
    assert Html.Escape("") == "";
  }

  /** Any search query holding a comment marker is refused. */
  lemma QueryMarkerRejected(raw: string, p: string, i: int)
    requires SqlPatterns.IsMarker(p) && OccursAt(raw, p, i)
    ensures CleanQuery(Some(raw)).Err?
  {
    MarkerSurvivesSanitize(raw, p, i);
  }
}

=== FILE: bookshelf_views.dfy ===
/**
 The function-based views `book_create_view` and `book_edit_view` of the
 bookshelf application, over an in-memory catalog.

 The catalog is a sequence: the book with primary key `k` sits at index
 `k - 1` (keys are assigned 1, 2, 3, ... and deletion is not modelled).
 */
module BookshelfViews {
  import opened Wrappers
  import opened PyText
  import Html
  import PyInt

  datatype Book = Book(title: string, author: string, publicationYear: int)

  /** What the views read from a request: the HTTP method (`verb`), the POST fields,
      and the permissions the requesting user holds. */
  datatype Request = Request(verb: string, post: map<string, string>, permissions: set<string>)

  datatype Response =
    | Forbidden                       // `permission_required(..., raise_exception=True)`: 403
    | MethodNotAllowed                // `require_http_methods`: 405
    | NotFound                        // `get_object_or_404`: 404
    | ServerError                     // an exception the view does not catch: 500
    | FormPage(error: Option<string>) // the book form rendered, with the `messages.error` text if any
    | RedirectToList                  // `redirect('book_list')`

  datatype Outcome = Outcome(response: Response, books: seq<Book>)

  /** `request.POST.get(key, '')`: a missing field reads as the empty string. */
  function Field(post: map<string, string>, key: string): (v: string)
    ensures key in post ==> v == post[key]
    ensures key !in post ==> v == ""
  {
    if key in post then post[key] else ""
  }

  const TitleLimit := 200
  const AuthorLimit := 100

  /** The checks of `book_create_view` on the stripped fields, in source order:
      the book to create, or the message of the first check that fails. */
  function CreateChecks(title: string, author: string, yearText: string): (r: Result<Book>)
    ensures r.Ok? ==> r.value.title == Html.Escape(title) && r.value.author == Html.Escape(author)
    ensures r.Ok? ==> PyInt.ParseInt(yearText) == Some(r.value.publicationYear)
    ensures r.Ok? ==> 1000 <= r.value.publicationYear <= 2100
    ensures r.Ok? ==> 0 < |title| <= TitleLimit && 0 < |author| <= AuthorLimit
  {
    if title == "" then Err("Title is required.")
    else if author == "" then Err("Author is required.")
    else if yearText == "" then Err("Publication year is required.")
    else if |title| > TitleLimit then Err("Title must be 200 characters or less.")
    else if |author| > AuthorLimit then Err("Author name must be 100 characters or less.")
    else
      match PyInt.ParseInt(yearText)
      case None => Err("Publication year must be a valid number.")
      case Some(year) =>
        if year < 1000 || year > 2100 then Err("Publication year must be between 1000 and 2100.")
        else Ok(Book(Html.Escape(title), Html.Escape(author), year))
  }

  /** Each message is produced exactly when every earlier check passed and its own failed. */
  lemma CreateChecksOrder(title: string, author: string, yearText: string)
    ensures var r := CreateChecks(title, author, yearText);
      && (r == Err("Title is required.") <==> title == "")
      && (r == Err("Author is required.") <==> title != "" && author == "")
      && (r == Err("Publication year is required.") <==> title != "" && author != "" && yearText == "")
      && (r == Err("Title must be 200 characters or less.") <==>
            (title != "" && author != "" && yearText != "" && |title| > TitleLimit))
      && (r == Err("Author name must be 100 characters or less.") <==>
            (yearText != "" && 0 < |title| <= TitleLimit && |author| > AuthorLimit))
  {
  }

  /** The year is looked at only once the text fields have passed: an unparsable year, a
      year out of range, and acceptance each happen exactly in their case. */
  lemma CreateChecksYearOrder(title: string, author: string, yearText: string)
    ensures var r := CreateChecks(title, author, yearText);
      && (r == Err("Publication year must be a valid number.") <==>
            (yearText != "" && 0 < |title| <= TitleLimit && 0 < |author| <= AuthorLimit
             && PyInt.ParseInt(yearText).None?))
      && (r == Err("Publication year must be between 1000 and 2100.") <==>
            (yearText != "" && 0 < |title| <= TitleLimit && 0 < |author| <= AuthorLimit
             && PyInt.ParseInt(yearText).Some? && !(1000 <= PyInt.ParseInt(yearText).value <= 2100)))
      && (r.Ok? <==>
            (yearText != "" && 0 < |title| <= TitleLimit && 0 < |author| <= AuthorLimit
             && PyInt.ParseInt(yearText).Some? && 1000 <= PyInt.ParseInt(yearText).value <= 2100))
  {
  }

  /** The POST handling of `book_create_view`: missing fields read as empty,
      all three are stripped before any check. */
  function CreateFromPost(post: map<string, string>): (r: Result<Book>)
    ensures "title" !in post || AllWhitespace(post["title"]) ==> r == Err("Title is required.")
    ensures r.Ok? ==> "title" in post && "author" in post && "publication_year" in post
    ensures r.Ok? ==> r.value.title == Html.Escape(Strip(post["title"])) && r.value.author == Html.Escape(Strip(post["author"]))
    ensures r.Ok? ==> PyInt.ParseInt(Strip(post["publication_year"])) == Some(r.value.publicationYear)
    ensures r.Ok? ==> |Strip(post["title"])| <= TitleLimit && |Strip(post["author"])| <= AuthorLimit
  {
    CreateChecks(Strip(Field(post, "title")), Strip(Field(post, "author")), Strip(Field(post, "publication_year")))
  }

  /** `book_create_view`: the permission check, the method restriction, then on
      POST the checks of `CreateFromPost`; only a POST that passes them all
      appends exactly one book. */
  function BookCreateView(req: Request, books: seq<Book>): (o: Outcome)
    ensures o.books == books || (o.response == RedirectToList && CreateFromPost(req.post).Ok? && o.books == books + [CreateFromPost(req.post).value])
    ensures req.verb != "POST" ==> o.books == books
    ensures "bookshelf.can_create" !in req.permissions ==> o == Outcome(Forbidden, books)
    ensures o.response == RedirectToList <==>
      "bookshelf.can_create" in req.permissions && req.verb == "POST" && CreateFromPost(req.post).Ok?
    ensures o.response == RedirectToList ==> o.books == books + [CreateFromPost(req.post).value]
    ensures "bookshelf.can_create" in req.permissions && req.verb == "GET" ==> o == Outcome(FormPage(None), books)
    ensures "bookshelf.can_create" in req.permissions && req.verb != "GET" && req.verb != "POST" ==>
      o == Outcome(MethodNotAllowed, books)
    ensures CreateFromPost(req.post).Err? && "bookshelf.can_create" in req.permissions && req.verb == "POST" ==>
      o == Outcome(FormPage(Some(CreateFromPost(req.post).msg)), books)
  {
    if "bookshelf.can_create" !in req.permissions then Outcome(Forbidden, books)
    else if req.verb != "GET" && req.verb != "POST" then Outcome(MethodNotAllowed, books)
    else if req.verb == "GET" then Outcome(FormPage(None), books)
    else
      match CreateFromPost(req.post)
      case Err(msg) => Outcome(FormPage(Some(msg)), books)
      case Ok(book) => Outcome(RedirectToList, books + [book])
  }

  /** A POST by a user holding every bookshelf permission. */
  function Post(fields: map<string, string>): Request {
    Request("POST", fields, {"bookshelf.can_create", "bookshelf.can_edit"})
  }

  /** `int()` reads the four-digit year texts of the examples below, as `str` writes them. */
  lemma FourDigitYear(text: string, year: int)
    requires (text == "2023" && year == 2023) || (text == "3000" && year == 3000)
    ensures PyInt.ParseInt(text) == Some(year)
  {
    if year == 2023 {
      Writes2023();
    } else {
      Writes3000();
    }
    PyInt.ParseIntRoundTrip(year);
  }

  lemma Writes2023()
    ensures PyInt.IntToText(2023) == "2023"
  {
  }

  lemma Writes3000()
    ensures PyInt.IntToText(3000) == "3000"
  {
  }

  /** The example inputs are already stripped. */
  lemma Trimmed(s: string)
    requires s in {"Test", "2023", "3000", "invalid", "Valid Book", "Valid Author"}
    ensures Strip(s) == s
  {
    StripOfTrimmed(s);
  }

  /** The view checks the length before escaping: a 200-character title holding `<`
      is accepted and stored as 203 characters, beyond the model field's 200. */
  lemma LengthCheckedBeforeEscape(books: seq<Book>, post: map<string, string>, title: string, author: string, year: string)
    requires title == ['<'] + seq(199, _ => 'a') && author == "Test" && year == "2023"
    requires post == map["title" := title, "author" := author, "publication_year" := year]
    ensures |title| == TitleLimit
    ensures var o := BookCreateView(Post(post), books);
      o.response == RedirectToList && |o.books[|books|].title| == 203
  {
    BracketTitlePasses(post, title, author, year);
  }

  lemma BracketTitlePasses(post: map<string, string>, title: string, author: string, year: string)
    requires title == ['<'] + seq(199, _ => 'a') && author == "Test" && year == "2023"
    requires post == map["title" := title, "author" := author, "publication_year" := year]
    ensures CreateFromPost(post).Ok? && |CreateFromPost(post).value.title| == 203
  {
    StripOfTrimmed(title);
    Trimmed(author);
    Trimmed(year);
    assert Field(post, "title") == title && Field(post, "author") == author && Field(post, "publication_year") == year;
    FourDigitYear(year, 2023);
    EscapedBracketTitle(title);
  }

  lemma EscapedBracketTitle(title: string)
    requires title == ['<'] + seq(199, _ => 'a')
    ensures |Html.Escape(title)| == 203
  {
    Html.EscapeConcat(['<'], title[1..]);
    Html.EscapePlain(title[1..]);
  }

  /** The security tests' empty title is refused with nothing created. */
  lemma EmptyTitleRejected(books: seq<Book>, author: string, year: string)
    requires author == "Test" && year == "2023"
    ensures BookCreateView(Post(map["title" := "", "author" := author, "publication_year" := year]), books)
      == Outcome(FormPage(Some("Title is required.")), books)
  {
    var post := map["title" := "", "author" := author, "publication_year" := year];
    assert Field(post, "title") == "";
  }

  /** The security tests' 300-character title is refused. */
  lemma LongTitleRejected(books: seq<Book>, title: string, author: string, year: string)
    requires title == seq(300, _ => 'A') && author == "Test" && year == "2023"
    ensures BookCreateView(Post(map["title" := title, "author" := author, "publication_year" := year]), books)
      == Outcome(FormPage(Some("Title must be 200 characters or less.")), books)
  {
    var post := map["title" := title, "author" := author, "publication_year" := year];
    StripOfTrimmed(title);
    Trimmed(author);
    Trimmed(year);
    assert Field(post, "title") == title && Field(post, "author") == author && Field(post, "publication_year") == year;
  }

  /** The security tests' non-numeric year is refused. */
  lemma InvalidYearRejected(books: seq<Book>, title: string, year: string)
    requires title == "Test" && year == "invalid"
    ensures BookCreateView(Post(map["title" := title, "author" := title, "publication_year" := year]), books)
      == Outcome(FormPage(Some("Publication year must be a valid number.")), books)
  {
    var post := map["title" := title, "author" := title, "publication_year" := year];
    Trimmed(title);
    Trimmed(year);
    assert Field(post, "title") == title && Field(post, "author") == title && Field(post, "publication_year") == year;
    PyInt.NoDigitNoNumber(year);
  }

  /** The security tests' year 3000 is refused as out of range. */
  lemma OutOfRangeYearRejected(books: seq<Book>, title: string, year: string)
    requires title == "Test" && year == "3000"
    ensures BookCreateView(Post(map["title" := title, "author" := title, "publication_year" := year]), books)
      == Outcome(FormPage(Some("Publication year must be between 1000 and 2100.")), books)
  {
    var post := map["title" := title, "author" := title, "publication_year" := year];
    Trimmed(title);
    Trimmed(year);
    assert Field(post, "title") == title && Field(post, "author") == title && Field(post, "publication_year") == year;
    FourDigitYear(year, 3000);
  }

  /** A year of 5000 digits is refused as not a number: `int()` stops at 4300 digits. */
  lemma HugeYearRejected(books: seq<Book>, title: string, year: string)
    requires title == "Test" && year == seq(5000, _ => '1')
    ensures BookCreateView(Post(map["title" := title, "author" := title, "publication_year" := year]), books)
      == Outcome(FormPage(Some("Publication year must be a valid number.")), books)
  {
    var post := map["title" := title, "author" := title, "publication_year" := year];
    Trimmed(title);
    StripOfTrimmed(year);
    assert Field(post, "title") == title && Field(post, "author") == title && Field(post, "publication_year") == year;
    PyInt.TooManyDigitsRefused(year);
  }

  lemma ValidBookChecks(title: string, author: string, year: string)
    requires title == "Valid Book" && author == "Valid Author" && year == "2023"
    ensures CreateChecks(title, author, year) == Ok(Book(title, author, 2023))
  {
    FourDigitYear(year, 2023);
    Html.EscapePlain(title);
    Html.EscapePlain(author);
  }

  lemma ValidBookPasses(post: map<string, string>, title: string, author: string, year: string)
    requires title == "Valid Book" && author == "Valid Author" && year == "2023"
    requires post == map["title" := title, "author" := author, "publication_year" := year]
    ensures CreateFromPost(post) == Ok(Book(title, author, 2023))
  {
    Trimmed(title);
    Trimmed(author);
    Trimmed(year);
    assert Field(post, "title") == title && Field(post, "author") == author && Field(post, "publication_year") == year;
    ValidBookChecks(title, author, year);
  }

  /** The security tests' valid book is created as given. */
  lemma ValidBookCreated(books: seq<Book>, post: map<string, string>, title: string, author: string, year: string)
    requires title == "Valid Book" && author == "Valid Author" && year == "2023"
    requires post == map["title" := title, "author" := author, "publication_year" := year]
    ensures BookCreateView(Post(post), books) == Outcome(RedirectToList, books + [Book(title, author, 2023)])
  {
    ValidBookPasses(post, title, author, year);
  }

  /** The field-update rule of `book_edit_view`: each field present in the POST
      data replaces the stored one verbatim (no stripping, escaping, length or
      range check), an absent one keeps its value; the year goes through `int()`,
      whose `ValueError` is an `Err`. */
  function EditedBook(post: map<string, string>, book: Book): (r: Result<Book>)
    ensures r.Err? <==> "publication_year" in post && PyInt.ParseInt(post["publication_year"]).None?
    ensures r.Ok? ==> r.value.title == (if "title" in post then post["title"] else book.title)
    ensures r.Ok? ==> r.value.author == (if "author" in post then post["author"] else book.author)
    ensures r.Ok? && "publication_year" !in post ==> r.value.publicationYear == book.publicationYear
    ensures r.Ok? && "publication_year" in post ==> PyInt.ParseInt(post["publication_year"]) == Some(r.value.publicationYear)
  {
    var title := if "title" in post then post["title"] else book.title;
    var author := if "author" in post then post["author"] else book.author;
    if "publication_year" in post then
      match PyInt.ParseInt(post["publication_year"])
      case None => Err("invalid literal for int() with base 10")
      case Some(year) => Ok(Book(title, author, year))
    else Ok(Book(title, author, book.publicationYear))
  }

  /** `book_edit_view`: permission, lookup, then on POST the field-update rule;
      an uncaught `ValueError` is a server error and nothing is saved. */
  function BookEditView(req: Request, books: seq<Book>, bookId: int): (o: Outcome)
    ensures |o.books| == |books|
    ensures forall k :: 0 <= k < |books| && k != bookId - 1 ==> o.books[k] == books[k]
    ensures o.books != books ==> o.response == RedirectToList && req.verb == "POST"
    ensures o.response == RedirectToList <==>
      "bookshelf.can_edit" in req.permissions && 1 <= bookId <= |books| && req.verb == "POST"
      && EditedBook(req.post, books[bookId - 1]).Ok?
    ensures o.response == RedirectToList ==> o.books[bookId - 1] == EditedBook(req.post, books[bookId - 1]).value
    ensures "bookshelf.can_edit" !in req.permissions ==> o == Outcome(Forbidden, books)
    ensures "bookshelf.can_edit" in req.permissions && !(1 <= bookId <= |books|) ==> o == Outcome(NotFound, books)
    ensures "bookshelf.can_edit" in req.permissions && 1 <= bookId <= |books| && req.verb != "POST" ==>
      o == Outcome(FormPage(None), books)
    ensures ("bookshelf.can_edit" in req.permissions && 1 <= bookId <= |books| && req.verb == "POST" &&
             EditedBook(req.post, books[bookId - 1]).Err?) ==> o == Outcome(ServerError, books)
  {
    if "bookshelf.can_edit" !in req.permissions then Outcome(Forbidden, books)
    else if !(1 <= bookId <= |books|) then Outcome(NotFound, books)
    else if req.verb != "POST" then Outcome(FormPage(None), books)
    else
      match EditedBook(req.post, books[bookId - 1])
      case Err(_) => Outcome(ServerError, books)
      case Ok(book) => Outcome(RedirectToList, books[bookId - 1 := book])
  }

  /** A 5000-digit year breaks the edit view, whose `int()` call is not guarded. */
  lemma HugeYearBreaksEdit(books: seq<Book>, year: string)
    requires |books| >= 1 && year == seq(5000, _ => '1')
    ensures BookEditView(Post(map["publication_year" := year]), books, 1) == Outcome(ServerError, books)
  {
    StripOfTrimmed(year);
    PyInt.TooManyDigitsRefused(year);
  }

  /** A year led by an information separator breaks the edit view too: its `int()`
      does not skip the separator, which the create view strips away first. */
  lemma SeparatorYearBreaksEdit(books: seq<Book>, year: string)
    requires |books| >= 1 && year == "\U{1C}2023"
    ensures BookEditView(Post(map["publication_year" := year]), books, 1) == Outcome(ServerError, books)
  {
    PyInt.SeparatorNotSkipped();
  }

  /** Editing skips every check of the create view: a 300-character title and a
      year of 3000 are stored as given. */
  lemma EditSkipsValidation(books: seq<Book>, title: string, year: string)
    requires |books| >= 1 && title == seq(300, _ => 'A') && year == "3000"
    ensures var o := BookEditView(Post(map["title" := title, "publication_year" := year]), books, 1);
      o.response == RedirectToList && o.books[0] == Book(title, books[0].author, 3000)
  {
    FourDigitYear(year, 3000);
  }
}

=== FILE: dates.dfy ===
/**
 Python's `datetime.date`: proleptic Gregorian dates from 0001-01-01 to
 9999-12-31, their chronological order, `toordinal`, and the whole years
 elapsed between two dates.
 */
module Dates {

  datatype CalendarDate = CalendarDate(year: int, month: int, day: int)

  const MinYear := 1
  const MaxYear := 9999

  predicate IsLeapYear(y: int) {
    y % 4 == 0 && (y % 100 != 0 || y % 400 == 0)
  }

  function DaysInYear(y: int): int {
    if IsLeapYear(y) then 366 else 365
  }

  function DaysInMonth(y: int, m: int): int
    requires 1 <= m <= 12
  {
    if m == 2 then (if IsLeapYear(y) then 29 else 28)
    else if m == 4 || m == 6 || m == 9 || m == 11 then 30
    else 31
  }

  predicate IsValid(d: CalendarDate) {
    && MinYear <= d.year <= MaxYear
    && 1 <= d.month <= 12
    && 1 <= d.day <= DaysInMonth(d.year, d.month)
  }

  /** A value of Python's `date` type. */
  type Date = d: CalendarDate | IsValid(d) witness CalendarDate(1, 1, 1)

  /** Python's `a < b` on dates; also Python's tuple comparison `(a.year, a.month, a.day) < (b.year, b.month, b.day)`. */
  predicate Before(a: CalendarDate, b: CalendarDate) {
    || a.year < b.year
    || (a.year == b.year && a.month < b.month)
    || (a.year == b.year && a.month == b.month && a.day < b.day)
  }

  function DaysBeforeYear(y: int): int
    requires y >= MinYear
  {
    var p := y - 1;
    p * 365 + p / 4 - p / 100 + p / 400
  }

  function DaysBeforeMonth(y: int, m: int): int
    requires 1 <= m <= 12
  {
    var table := [0, 0, 31, 59, 90, 120, 151, 181, 212, 243, 273, 304, 334];
    table[m] + (if m > 2 && IsLeapYear(y) then 1 else 0)
  }

  /** Python's `d.toordinal()`: 0001-01-01 is day 1. */
  function Ordinal(d: Date): (n: int)
    ensures DaysBeforeYear(d.year) < n <= DaysBeforeYear(d.year) + DaysInYear(d.year)
  {
    DaysBeforeYear(d.year) + DaysBeforeMonth(d.year, d.month) + d.day
  }

  /** The ordinal of 9999-12-31, Python's largest date. */
  const MaxOrdinal := 3652059

  lemma OrdinalRange(d: Date)
    ensures 1 <= Ordinal(d) <= MaxOrdinal
  {
    YearsAdvance(d.year + 1, MaxYear + 1);
  }

  /** A year contributes exactly its own length to the days before the next one. */
  lemma NextYear(y: int)
    requires y >= MinYear
    ensures DaysBeforeYear(y + 1) == DaysBeforeYear(y) + DaysInYear(y)
  {
    var p := y - 1;
    Step4(p);
    Step100(p);
    Step400(p);
    Multiples(y);
    var leap := (if y % 4 == 0 then 1 else 0) - (if y % 100 == 0 then 1 else 0) + (if y % 400 == 0 then 1 else 0);
    assert DaysInYear(y) == 365 + leap;
  }

  /** A multiple of 400 is one of 100, and a multiple of 100 is one of 4. */
  lemma Multiples(y: int)
    ensures y % 400 == 0 ==> y % 100 == 0
    ensures y % 100 == 0 ==> y % 4 == 0
  {
  }

  // Counting the multiples of 4, 100 and 400 up to p + 1 adds one exactly when p + 1 is one.

  lemma Step4(p: int)
    ensures (p + 1) / 4 == p / 4 + (if (p + 1) % 4 == 0 then 1 else 0)
  {
  }

  lemma Step100(p: int)
    ensures (p + 1) / 100 == p / 100 + (if (p + 1) % 100 == 0 then 1 else 0)
  {
  }

  lemma Step400(p: int)
    ensures (p + 1) / 400 == p / 400 + (if (p + 1) % 400 == 0 then 1 else 0)
  {
  }

  lemma {:induction false} YearsAdvance(y1: int, y2: int)
    requires MinYear <= y1 <= y2
    ensures DaysBeforeYear(y1) + 365 * (y2 - y1) <= DaysBeforeYear(y2)
    decreases y2 - y1
  {
    if y1 < y2 {
      NextYear(y1);
      YearsAdvance(y1 + 1, y2);
    }
  }

  /** Within one year, the ordinal follows the (month, day) order. */
  lemma SameYearOrder(a: Date, b: Date)
    requires a.year == b.year && Before(a, b)
    ensures Ordinal(a) < Ordinal(b)
  {
    if a.month < b.month {
      var m := a.month;
      assert DaysBeforeMonth(a.year, m) + DaysInMonth(a.year, m) <= DaysBeforeMonth(a.year, b.month);
    }
  }

  /** `toordinal` embeds the calendar order into the integers. */
  lemma OrdinalMonotone(a: Date, b: Date)
    requires Before(a, b)
    ensures Ordinal(a) < Ordinal(b)
  {
    if a.year < b.year {
      NextYear(a.year);
      assert Ordinal(a) <= DaysBeforeYear(a.year + 1);
      YearsAdvance(a.year + 1, b.year);
      assert DaysBeforeYear(a.year + 1) <= DaysBeforeYear(b.year) < Ordinal(b);
    } else {
      SameYearOrder(a, b);
    }
  }

  /** Hence comparing dates and comparing their ordinals agree, in both directions. */
  lemma OrdinalOrder(a: Date, b: Date)
    ensures Before(a, b) <==> Ordinal(a) < Ordinal(b)
    ensures a == b <==> Ordinal(a) == Ordinal(b)
  {
    if Before(a, b) {
      OrdinalMonotone(a, b);
    } else if Before(b, a) {
      OrdinalMonotone(b, a);
    }
  }

  /** Whole years elapsed from `born` to `today`: the year difference, less one
      when today's (month, day) comes before the birthday's. */
  function CompletedYears(born: CalendarDate, today: CalendarDate): (age: int)
    ensures !Before(today, CalendarDate(born.year + age, born.month, born.day))
    ensures Before(today, CalendarDate(born.year + age + 1, born.month, born.day))
  {
    today.year - born.year
      - (if today.month < born.month || (today.month == born.month && today.day < born.day) then 1 else 0)
  }

  /** The anniversary characterisation pins the age down uniquely. */
  lemma CompletedYearsUnique(born: CalendarDate, today: CalendarDate, k: int)
    requires !Before(today, CalendarDate(born.year + k, born.month, born.day))
    requires Before(today, CalendarDate(born.year + k + 1, born.month, born.day))
    ensures k == CompletedYears(born, today)
  {
  }
}

=== FILE: drf.dfy ===
/**
 The pieces of Django REST Framework the permission classes read.

 Assumptions about the framework (not part of this model): `SAFE_METHODS`
 is `('GET', 'HEAD', 'OPTIONS')`; `request.user` is either the anonymous
 user, whose `is_authenticated` is false, or an account, whose
 `is_authenticated` is true; a missing user (`None`) is falsy.
 */
module Drf {
  import opened Wrappers

  const SafeMethods: set<string> := {"GET", "HEAD", "OPTIONS"}

  /** `request.user`: the anonymous user, or the account with primary key `id`. */
  datatype Principal = AnonymousUser | Account(id: nat)

  /** `request.user and request.user.is_authenticated`. */
  predicate Authenticated(user: Option<Principal>) {
    user.Some? && user.value.Account?
  }
}

=== FILE: html.dfy ===
/**
 HTML escaping as the bookshelf forms and views apply it.

 Assumption: Django's `django.utils.html.escape` (not part of this model)
 replaces exactly five characters by entities: `&` by `&amp;`, `<` by `&lt;`,
 `>` by `&gt;`, `"` by `&quot;` and `'` by `&#x27;`, and leaves every other
 character alone. `Unescape` is a reference inverse used only to state that
 escaping loses nothing.
 */
module Html {
  import opened PyText

  /** The characters `Escape` replaces. */
  predicate IsSpecial(c: char) {
    c == '&' || c == '<' || c == '>' || c == '"' || c == '\''
  }

  function EscapeChar(c: char): (e: string)
    ensures IsSpecial(c) ==> |e| >= 4 && e[0] == '&'
    ensures !IsSpecial(c) ==> e == [c]
  {
    match c
    case '&' => "&amp;"
    case '<' => "&lt;"
    case '>' => "&gt;"
    case '"' => "&quot;"
    case '\'' => "&#x27;"
    case _ => [c]
  }

  /** Django's `escape(s)`. */
  function Escape(s: string): (r: string)
    ensures |r| >= |s|
    ensures '<' !in r && '>' !in r
  {
    if s == [] then [] else EscapeChar(s[0]) + Escape(s[1..])
  }

  predicate HasPrefix(s: string, p: string) {
    |p| <= |s| && s[..|p|] == p
  }

  /** Reference inverse of `Escape`: replaces the five entities by their characters. */
  function Unescape(s: string): string
    decreases |s|
  {
    if s == [] then []
    else if HasPrefix(s, "&amp;") then "&" + Unescape(s[5..])
    else if HasPrefix(s, "&lt;") then "<" + Unescape(s[4..])
    else if HasPrefix(s, "&gt;") then ">" + Unescape(s[4..])
    else if HasPrefix(s, "&quot;") then "\"" + Unescape(s[6..])
    else if HasPrefix(s, "&#x27;") then "'" + Unescape(s[6..])
    else [s[0]] + Unescape(s[1..])
  }

  lemma NotPrefix(s: string, p: string, k: int)
    requires 0 <= k < |p| && k < |s| && s[k] != p[k]
    ensures !HasPrefix(s, p)
  {
  }

  /** Unescaping consumes exactly the replacement of one character. */
  lemma UnescapeEscapedChar(c: char, rest: string)
    ensures Unescape(EscapeChar(c) + rest) == [c] + Unescape(rest)
  {
    var t := EscapeChar(c) + rest;
    if c == '&' {
      assert HasPrefix(t, "&amp;") && t[5..] == rest;
    } else if c == '<' {
      NotPrefix(t, "&amp;", 1);
      assert HasPrefix(t, "&lt;") && t[4..] == rest;
    } else if c == '>' {
      NotPrefix(t, "&amp;", 1);
      NotPrefix(t, "&lt;", 1);
      assert HasPrefix(t, "&gt;") && t[4..] == rest;
    } else if c == '"' {
      NotPrefix(t, "&amp;", 1);
      NotPrefix(t, "&lt;", 1);
      NotPrefix(t, "&gt;", 1);
      assert HasPrefix(t, "&quot;") && t[6..] == rest;
    } else if c == '\'' {
      NotPrefix(t, "&amp;", 1);
      NotPrefix(t, "&lt;", 1);
      NotPrefix(t, "&gt;", 1);
      NotPrefix(t, "&quot;", 1);
      assert HasPrefix(t, "&#x27;") && t[6..] == rest;
    } else {
      NotPrefix(t, "&amp;", 0);
      NotPrefix(t, "&lt;", 0);
      NotPrefix(t, "&gt;", 0);
      NotPrefix(t, "&quot;", 0);
      NotPrefix(t, "&#x27;", 0);
      assert t[0] == c && t[1..] == rest;
    }
  }

  /** Escaping loses nothing: unescaping an escaped string gives it back. */
  lemma {:induction false} EscapeRoundTrip(s: string)
    ensures Unescape(Escape(s)) == s
  {
    if s != [] {
      EscapeRoundTrip(s[1..]);
      UnescapeEscapedChar(s[0], Escape(s[1..]));
      assert [s[0]] + s[1..] == s;
    }
  }

  /** Hence escaping is injective. */
  lemma EscapeInjective(s: string, t: string)
    requires Escape(s) == Escape(t)
    ensures s == t
  {
    EscapeRoundTrip(s);
    EscapeRoundTrip(t);
  }

  /** Escaping works character by character, so it distributes over concatenation. */
  lemma {:induction false} EscapeConcat(a: string, b: string)
    ensures Escape(a + b) == Escape(a) + Escape(b)
  {
    if a != [] {
      assert (a + b)[0] == a[0];
      assert (a + b)[1..] == a[1..] + b;
      EscapeConcat(a[1..], b);
    } else {
      assert a + b == b;
    }
  }

  /** A string holding a special character escapes to at least three more characters. */
  lemma {:induction false} EscapeGrowsOnSpecial(s: string, i: int)
    requires 0 <= i < |s| && IsSpecial(s[i])
    ensures |Escape(s)| >= |s| + 3
  {
    if i > 0 {
      assert s[1..][i - 1] == s[i];
      EscapeGrowsOnSpecial(s[1..], i - 1);
    }
  }

  /** The number of special characters in a string. */
  function SpecialCount(s: string): nat {
    if s == [] then 0 else (if IsSpecial(s[0]) then 1 else 0) + SpecialCount(s[1..])
  }

  /** Every special character adds at least three characters: the escaped length
      is at least the length plus three per special character. */
  lemma {:induction false} EscapeGrowsPerSpecial(s: string)
    ensures |Escape(s)| >= |s| + 3 * SpecialCount(s)
  {
    if s != [] {
      EscapeGrowsPerSpecial(s[1..]);
    }
  }

  /** A string without special characters is its own escape. */
  lemma {:induction false} EscapePlain(s: string)
    requires forall k :: 0 <= k < |s| ==> !IsSpecial(s[k])
    ensures Escape(s) == s
  {
    if s != [] {
      EscapePlain(s[1..]);
      assert [s[0]] + s[1..] == s;
    }
  }

  /** An occurrence of a pattern free of special characters survives escaping. */
  lemma {:induction false} EscapeKeepsOccurrence(s: string, p: string, i: int)
    requires OccursAt(s, p, i)
    requires forall k :: 0 <= k < |p| ==> !IsSpecial(p[k])
    ensures OccursAt(Escape(s), p, |Escape(s[..i])|)
  {
    var pre, post := s[..i], s[i + |p|..];
    assert s == pre + (p + post);
    EscapeConcat(pre, p + post);
    EscapeConcat(p, post);
    EscapePlain(p);
    MiddleWindow(Escape(pre), p, Escape(post));
  }

  /** The middle piece of a three-piece concatenation sits right after the first. */
  lemma MiddleWindow(a: string, p: string, b: string)
    ensures OccursAt(a + (p + b), p, |a|)
  {
    assert (a + (p + b))[|a|..|a| + |p|] == p;
  }
}

=== FILE: pyint.dfy ===
/**
 Python's `int(text)` in base 10, and `str(n)` as its partner.

 `int` accepts surrounding whitespace, one optional sign, and ASCII digits
 that may be grouped by single underscores (`"1_000"`). Its whitespace is not
 quite `str.isspace`: CPython maps every non-ASCII space to a plain space and
 then skips only ASCII spaces, so the separators U+001C..U+001F, which
 `str.isspace` counts, are refused. Since Python 3.11
 (and the matching security releases of 3.7 to 3.10) a decimal text of more
 than 4300 digits is refused as well. Simplification: the non-ASCII decimal
 digits that Python also accepts are not modelled.
 */
module PyInt {
  import opened Wrappers
  import opened PyText

  predicate IsDigit(c: char) {
    '0' <= c <= '9'
  }

  function DigitValue(c: char): nat
    requires IsDigit(c)
  {
    c as int - '0' as int
  }

  predicate DigitsOrUnderscores(s: string) {
    forall i :: 0 <= i < |s| ==> IsDigit(s[i]) || s[i] == '_'
  }

  /** The digit part Python's `int` accepts: digits, with single underscores
      allowed only between two digits. */
  predicate IsDigitString(s: string) {
    && |s| > 0
    && IsDigit(s[0])
    && IsDigit(s[|s| - 1])
    && DigitsOrUnderscores(s)
    && forall i :: 0 <= i < |s| - 1 ==> !(s[i] == '_' && s[i + 1] == '_')
  }

  /** The number written by a digit string, reading left to right and skipping underscores. */
  function DigitsValue(s: string): nat
    requires DigitsOrUnderscores(s)
  {
    if s == [] then 0
    else if s[|s| - 1] == '_' then DigitsValue(s[..|s| - 1])
    else DigitsValue(s[..|s| - 1]) * 10 + DigitValue(s[|s| - 1])
  }

  /** The default of `sys.get_int_max_str_digits()`. */
  const MaxStrDigits := 4300

  /** The number of digits in a text, underscores not counted. */
  function DigitCount(s: string): nat {
    if s == [] then 0
    else DigitCount(s[..|s| - 1]) + (if IsDigit(s[|s| - 1]) then 1 else 0)
  }

  /** A digit string `int` converts: well formed and within the digit limit. */
  predicate Convertible(s: string) {
    IsDigitString(s) && DigitCount(s) <= MaxStrDigits
  }

  /** The whitespace `int` skips around its number: every `str.isspace` character
      except the separators U+001C..U+001F. */
  predicate IsIntSpace(c: char) {
    IsWhitespace(c) && !('\U{1C}' <= c <= '\U{1F}')
  }

  /** Index of the first character of `s` that `int` does not skip (|s| when there is none). */
  function IntSpaceStart(s: string): (a: nat)
    ensures a <= |s|
    ensures forall i :: 0 <= i < a ==> IsIntSpace(s[i])
    ensures a < |s| ==> !IsIntSpace(s[a])
  {
    if |s| == 0 || !IsIntSpace(s[0]) then 0 else 1 + IntSpaceStart(s[1..])
  }

  /** One past the last character of `s` that `int` does not skip (0 when there is none). */
  function IntSpaceEnd(s: string): (b: nat)
    ensures b <= |s|
    ensures forall i :: b <= i < |s| ==> IsIntSpace(s[i])
    ensures 0 < b ==> !IsIntSpace(s[b - 1])
  {
    if |s| == 0 || !IsIntSpace(s[|s| - 1]) then |s| else IntSpaceEnd(s[..|s| - 1])
  }

  /** The text `int` reads its number from: `s` without leading and trailing `IsIntSpace` characters. */
  function IntStrip(s: string): (r: string)
    ensures r != [] ==> !IsIntSpace(r[0]) && !IsIntSpace(r[|r| - 1])
    ensures IntSpaceStart(s) + |r| <= |s| && r == s[IntSpaceStart(s)..IntSpaceStart(s) + |r|]
    ensures forall i :: 0 <= i < IntSpaceStart(s) ==> IsIntSpace(s[i])
    ensures forall i :: IntSpaceStart(s) + |r| <= i < |s| ==> IsIntSpace(s[i])
  {
    var a := IntSpaceStart(s);
    if a == |s| then [] else s[a..IntSpaceEnd(s)]
  }

  /** A text whose ends `int` does not skip is read whole. */
  lemma IntStripOfTrimmed(s: string)
    requires s != [] && !IsIntSpace(s[0]) && !IsIntSpace(s[|s| - 1])
    ensures IntStrip(s) == s
  {
  }

  /** Python's `int(text)`: `None` stands for the `ValueError` it raises. */
  function ParseInt(text: string): (r: Option<int>)
    ensures r.Some? ==> !AllWhitespace(text)
  {
    var t := IntStrip(text);
    if |t| > 0 && (t[0] == '+' || t[0] == '-') then
      if Convertible(t[1..]) then
        var n: int := DigitsValue(t[1..]);
        Some(if t[0] == '-' then -n else n)
      else None
    else if Convertible(t) then Some(DigitsValue(t))
    else None
  }

  function DigitChar(d: nat): (c: char)
    requires d < 10
    ensures IsDigit(c) && DigitValue(c) == d
  {
    ('0' as int + d) as char
  }

  /** Decimal digits of a natural number, most significant first. */
  function NatToDigits(n: nat): (s: string)
    ensures |s| > 0
    ensures forall i :: 0 <= i < |s| ==> IsDigit(s[i])
  {
    if n < 10 then [DigitChar(n)] else NatToDigits(n / 10) + [DigitChar(n % 10)]
  }

  /** Python's `str(n)`. */
  function IntToText(n: int): string {
    if n < 0 then "-" + NatToDigits(-n) else NatToDigits(n)
  }

  lemma {:induction false} DigitsValueOfNatToDigits(n: nat)
    ensures DigitsValue(NatToDigits(n)) == n
  {
    var s := NatToDigits(n);
    if n >= 10 {
      DigitsValueOfNatToDigits(n / 10);
      assert s[..|s| - 1] == NatToDigits(n / 10);
    }
  }

  /** `int(str(n)) == n` for every integer of at most 4300 digits. */
  lemma ParseIntRoundTrip(n: int)
    requires |NatToDigits(if n < 0 then -n else n)| <= MaxStrDigits
    ensures ParseInt(IntToText(n)) == Some(n)
  {
    if n < 0 {
      ParseNegativeText(-n);
    } else {
      DigitsValueOfNatToDigits(n);
      ParsePlainDigits(NatToDigits(n));
    }
  }

  lemma ParseNegativeText(m: nat)
    requires m > 0 && |NatToDigits(m)| <= MaxStrDigits
    ensures ParseInt("-" + NatToDigits(m)) == Some(-(m as int))
  {
    var d := NatToDigits(m);
    var text := "-" + d;
    assert text[|text| - 1] == d[|d| - 1];
    IntStripOfTrimmed(text);
    assert text[0] == '-' && text[1..] == d;
    DigitRunIsDigitString(d);
    DigitRunCount(d);
    DigitsValueOfNatToDigits(m);
  }

  /** A nonempty run of ASCII digits is a digit string `int` accepts. */
  lemma DigitRunIsDigitString(s: string)
    requires |s| > 0 && forall i :: 0 <= i < |s| ==> IsDigit(s[i])
    ensures IsDigitString(s)
  {
  }

  /** Every character of a plain digit run counts as a digit. */
  lemma {:induction false} DigitRunCount(s: string)
    requires forall i :: 0 <= i < |s| ==> IsDigit(s[i])
    ensures DigitCount(s) == |s|
  {
    if s != [] {
      DigitRunCount(s[..|s| - 1]);
    }
  }

  /** A plain run of at most 4300 ASCII digits reads as the number it writes. */
  lemma ParsePlainDigits(text: string)
    requires 0 < |text| <= MaxStrDigits && forall i :: 0 <= i < |text| ==> IsDigit(text[i])
    ensures ParseInt(text) == Some(DigitsValue(text))
  {
    IntStripOfTrimmed(text);
    DigitRunIsDigitString(text);
    DigitRunCount(text);
    assert Convertible(text) && !(text[0] == '+' || text[0] == '-');
  }

  /** A plain run of more than 4300 digits is refused, however small its value. */
  lemma TooManyDigitsRefused(text: string)
    requires |text| > MaxStrDigits && forall i :: 0 <= i < |text| ==> IsDigit(text[i])
    ensures ParseInt(text) == None
  {
    IntStripOfTrimmed(text);
    DigitRunCount(text);
  }

  /** A text holding no digit at all is not a number. */
  lemma NoDigitNoNumber(text: string)
    requires forall i :: 0 <= i < |text| ==> !IsDigit(text[i])
    ensures ParseInt(text) == None
  {
    var t := IntStrip(text);
    if t != [] {
      assert t[0] == text[IntSpaceStart(text)];
    }
  }

  /** `int` does not skip a leading information separator, although `str.strip` does:
      `int("\x1c2023")` raises while `int("\x1c2023".strip())` is 2023. */
  lemma SeparatorNotSkipped()
    ensures ParseInt("\U{1C}2023") == None
    ensures Strip("\U{1C}2023") == "2023"
    ensures ParseInt(Strip("\U{1C}2023")) == Some(2023)
  {
    var text := "\U{1C}2023";
    assert IntSpaceStart(text) == 0;
    assert IntStrip(text) == text;
    assert !IsDigit(text[0]);
    assert StripStart(text) == 1 by {
      assert IsWhitespace(text[0]) && !IsWhitespace(text[1]);
    }
    assert StripEnd(text) == |text|;
    assert text[1..] == "2023";
    assert IntToText(2023) == "2023";
    ParseIntRoundTrip(2023);
  }
}

=== FILE: pytext.dfy ===
/**
 Python's string primitives as the validators use them: `str.isspace`,
 `str.strip`, `str.lower` and the `in` test on strings.

 Simplifications: `Lower` maps only the ASCII letters (Python lowers every
 cased Unicode letter); `IsWhitespace` lists the characters for which
 Python's `str.isspace` holds.
 */
module PyText {

  /** Python's `str.isspace` on one character: the ASCII controls U+0009..U+000D,
      the separators U+001C..U+001F, the space, and the Unicode spaces. */
  predicate IsWhitespace(c: char) {
    || ('\t' <= c <= '\r')
    || ('\U{1C}' <= c <= ' ')
    || c == '\U{85}' || c == '\U{A0}' || c == '\U{1680}'
    || ('\U{2000}' <= c <= '\U{200A}')
    || c == '\U{2028}' || c == '\U{2029}' || c == '\U{202F}' || c == '\U{205F}' || c == '\U{3000}'
  }

  predicate AllWhitespace(s: string) {
    forall i :: 0 <= i < |s| ==> IsWhitespace(s[i])
  }

  /** Index of the first non-whitespace character of `s` (|s| when there is none). */
  function StripStart(s: string): (a: nat)
    ensures a <= |s|
    ensures forall i :: 0 <= i < a ==> IsWhitespace(s[i])
    ensures a < |s| ==> !IsWhitespace(s[a])
  {
    if |s| == 0 || !IsWhitespace(s[0]) then 0 else 1 + StripStart(s[1..])
  }

  /** One past the last non-whitespace character of `s` (0 when there is none). */
  function StripEnd(s: string): (b: nat)
    ensures b <= |s|
    ensures forall i :: b <= i < |s| ==> IsWhitespace(s[i])
    ensures 0 < b ==> !IsWhitespace(s[b - 1])
  {
    if |s| == 0 || !IsWhitespace(s[|s| - 1]) then |s| else StripEnd(s[..|s| - 1])
  }

  /** Python's `s.strip()`: `s` without its leading and trailing whitespace. */
  function Strip(s: string): (r: string)
    ensures r == [] <==> AllWhitespace(s)
    ensures r != [] ==> !IsWhitespace(r[0]) && !IsWhitespace(r[|r| - 1])
    ensures AllWhitespace(s[..StripStart(s)])
    ensures StripStart(s) + |r| <= |s| && r == s[StripStart(s)..StripStart(s) + |r|]
    ensures AllWhitespace(s[StripStart(s) + |r|..])
  {
    var a := StripStart(s);
    if a == |s| then [] else s[a..StripEnd(s)]
  }

  /** ASCII lowering of one character. */
  function LowerChar(c: char): char {
    if 'A' <= c <= 'Z' then (c as int - 'A' as int + 'a' as int) as char else c
  }

  /** Python's `s.lower()`, restricted to ASCII letters. */
  function Lower(s: string): (r: string)
    ensures |r| == |s|
    ensures forall i :: 0 <= i < |s| ==> r[i] == LowerChar(s[i])
  {
    seq(|s|, i requires 0 <= i < |s| => LowerChar(s[i]))
  }

  /** `p` occurs in `s` starting at index `i`. */
  predicate OccursAt(s: string, p: string, i: int) {
    0 <= i && i + |p| <= |s| && s[i..i + |p|] == p
  }

  /** Python's substring test `p in s`. */
  predicate Contains(s: string, p: string) {
    exists i | 0 <= i <= |s| - |p| :: OccursAt(s, p, i)
  }

  /** Stripping keeps every non-whitespace character, at a shifted index. */
  lemma StripKeepsInterior(s: string, i: int)
    requires 0 <= i < |s| && !IsWhitespace(s[i])
    ensures StripStart(s) <= i < StripStart(s) + |Strip(s)|
    ensures Strip(s)[i - StripStart(s)] == s[i]
  {
  }

  /** A string with non-whitespace ends is its own strip. */
  lemma StripOfTrimmed(s: string)
    requires s != [] && !IsWhitespace(s[0]) && !IsWhitespace(s[|s| - 1])
    ensures Strip(s) == s
  {
    StripKeepsInterior(s, 0);
    StripKeepsInterior(s, |s| - 1);
  }

  /** Stripping twice is stripping once. */
  lemma StripIdempotent(s: string)
    ensures Strip(Strip(s)) == Strip(s)
  {
    if Strip(s) != [] {
      StripOfTrimmed(Strip(s));
    }
  }

  /** An occurrence of a pattern that neither starts nor ends with whitespace survives stripping. */
  lemma {:induction false} StripKeepsOccurrence(s: string, p: string, i: int)
    requires p != [] && OccursAt(s, p, i)
    requires !IsWhitespace(p[0]) && !IsWhitespace(p[|p| - 1])
    ensures OccursAt(Strip(s), p, i - StripStart(s))
  {
    OccurrenceWithinStrip(s, p, i);
    WindowOfSlice(s, Strip(s), StripStart(s), i, |p|);
  }

  /** Such an occurrence lies wholly inside the stripped part. */
  lemma OccurrenceWithinStrip(s: string, p: string, i: int)
    requires p != [] && OccursAt(s, p, i)
    requires !IsWhitespace(p[0]) && !IsWhitespace(p[|p| - 1])
    ensures StripStart(s) <= i && i + |p| <= StripStart(s) + |Strip(s)|
  {
    var j := i + |p| - 1;
    assert s[i] == p[0] && s[j] == p[|p| - 1] by {
      assert s[i..i + |p|] == p;
    }
    StripKeepsInterior(s, i);
    StripKeepsInterior(s, j);
  }

  /** A window of a slice is the same window of the original, shifted. */
  lemma WindowOfSlice(s: string, r: string, a: int, i: int, n: int)
    requires 0 <= a <= i && 0 <= n && i + n <= a + |r| <= |s| && r == s[a..a + |r|]
    ensures r[i - a..i - a + n] == s[i..i + n]
  {
    var x, y := r[i - a..i - a + n], s[i..i + n];
    forall k | 0 <= k < n
      ensures x[k] == y[k]
    {
      assert r[i - a + k] == s[a..a + |r|][i - a + k];
    }
  }
}

=== FILE: social_accounts.dfy ===
/**
 The social media API's accounts: `LoginSerializer.validate` and
 `CustomUser.validate_birth_date`.

 The user table is a map from username to user, looked up exactly as the
 database query `username=...` would; the password check of Django's auth
 framework is a parameter; the current date is a parameter.
 */
module SocialAccounts {
  import opened Wrappers
  import opened Dates

  datatype User = User(id: nat, username: string)

  /** A value of the serializer's data after validation: a submitted text field,
      or the user object `validate` stores under `'user'`. */
  datatype DataValue = Text(text: string) | UserRef(user: User)

  const RequiredMessage := "Both username and password are required."
  const InvalidMessage := "Invalid username or password."

  /** Python truthiness of `data.get(key)` for a text field. */
  predicate Filled(data: map<string, string>, key: string) {
    key in data && data[key] != ""
  }

  /** The submitted fields with `'user'` bound to `user`. */
  function WithUser(data: map<string, string>, user: User): (out: map<string, DataValue>)
    ensures out.Keys == data.Keys + {"user"}
    ensures out["user"] == UserRef(user)
    ensures forall k :: k in data && k != "user" ==> out[k] == Text(data[k])
  {
    (map k | k in data :: Text(data[k]))["user" := UserRef(user)]
  }

  /** `LoginSerializer.validate`. */
  function ValidateLogin(data: map<string, string>, users: map<string, User>, checkPassword: (User, string) -> bool)
    : (r: Result<map<string, DataValue>>)
    ensures r == Err(RequiredMessage) <==> !Filled(data, "username") || !Filled(data, "password")
    ensures r == Err(InvalidMessage) <==>
      Filled(data, "username") && Filled(data, "password")
      && (data["username"] !in users || !checkPassword(users[data["username"]], data["password"]))
    ensures r.Ok? <==> r != Err(RequiredMessage) && r != Err(InvalidMessage)
    ensures r.Ok? ==>
      data["username"] in users && checkPassword(users[data["username"]], data["password"])
      && r.value == WithUser(data, users[data["username"]])
  {
    if Filled(data, "username") && Filled(data, "password") then
      var username := data["username"];
      if username !in users then Err(InvalidMessage)
      else if !checkPassword(users[username], data["password"]) then Err(InvalidMessage)
      else Ok(WithUser(data, users[username]))
    else Err(RequiredMessage)
  }

  /** An unknown username and a wrong password cannot be told apart: the outcome
      depends on the user table only through the entry for the given name, and every
      refusal of a complete submission carries the same message. */
  lemma LoginHidesWhichPartFailed(data: map<string, string>, users1: map<string, User>, users2: map<string, User>,
                                  check1: (User, string) -> bool, check2: (User, string) -> bool)
    requires Filled(data, "username") && Filled(data, "password")
    requires ValidateLogin(data, users1, check1).Err? && ValidateLogin(data, users2, check2).Err?
    ensures ValidateLogin(data, users1, check1) == ValidateLogin(data, users2, check2)
  {
  }

  const FutureMessage := "Birth date cannot be in the future."
  const TooYoungMessage := "User must be at least 13 years old."
  const MinimumAge := 13

  /** `CustomUser.validate_birth_date` as written: the age is the difference of the years. */
  function ValidateBirthDate(birth: Option<Date>, today: Date): (r: Result<()>)
    ensures birth.None? ==> r.Ok?
    ensures birth.Some? && Before(today, birth.value) ==> r == Err(FutureMessage)
    ensures r.Ok? <==> birth.None? || (!Before(today, birth.value) && today.year - birth.value.year >= MinimumAge)
    ensures r.Err? ==> r == Err(FutureMessage) || r == Err(TooYoungMessage)
  {
    match birth
    case None => Ok(())
    case Some(b) =>
      if Before(today, b) then Err(FutureMessage)
      else if today.year - b.year < MinimumAge then Err(TooYoungMessage)
      else Ok(())
  }

  /** Every past date of the last twelve calendar years, earlier this year included, is refused. */
  lemma RecentYearsRefused(b: Date, today: Date)
    requires !Before(today, b) && b.year > today.year - MinimumAge
    ensures ValidateBirthDate(Some(b), today) == Err(TooYoungMessage)
  {
  }

  /** The check as written accepts a child who is twelve years and one day old. */
  lemma TwelveYearOldAccepted(b: Date, today: Date)
    requires b == CalendarDate(2013, 12, 31) && today == CalendarDate(2026, 1, 1)
    ensures CompletedYears(b, today) == 12
    ensures ValidateBirthDate(Some(b), today).Ok?
  {
  }

  /** The check as its comment describes it: at least thirteen completed years. */
  function ValidateBirthDateByAge(birth: Option<Date>, today: Date): (r: Result<()>)
    ensures birth.None? ==> r.Ok?
    ensures birth.Some? && Before(today, birth.value) ==> r == Err(FutureMessage)
    ensures r.Ok? <==> birth.None? || CompletedYears(birth.value, today) >= MinimumAge
  {
    match birth
    case None => Ok(())
    case Some(b) =>
      if Before(today, b) then Err(FutureMessage)
      else if CompletedYears(b, today) < MinimumAge then Err(TooYoungMessage)
      else Ok(())
  }

  /** The corrected check accepts exactly those born on or before their thirteenth
      anniversary, and it refuses a superset of what the written check refuses; the
      two differ only on those whose thirteenth birthday falls later this year. */
  lemma ByAgeIsTheThirteenthBirthday(birth: Date, today: Date)
    ensures ValidateBirthDateByAge(Some(birth), today).Ok?
        <==> !Before(today, CalendarDate(birth.year + MinimumAge, birth.month, birth.day))
    ensures ValidateBirthDateByAge(Some(birth), today).Ok? ==> ValidateBirthDate(Some(birth), today).Ok?
    ensures ValidateBirthDate(Some(birth), today).Ok? && ValidateBirthDateByAge(Some(birth), today).Err?
        <==> today.year - birth.year == MinimumAge && CompletedYears(birth, today) == MinimumAge - 1
  {
  }
}

=== FILE: sqlpatterns.dfy ===
/**
 The "dangerous content" regular expressions of the bookshelf forms, as exact
 predicates over match positions.

 `(?i)` is modelled as ASCII case-insensitivity (Python's Unicode case
 folding also lets a few non-ASCII letters match); `\s` is `IsWhitespace`;
 `.` is any character except a newline.
 */
module SqlPatterns {
  import opened PyText

  /** The lower-case word `w` occurs at index `i` of `s`, ignoring ASCII case. */
  predicate WordAt(s: string, i: int, w: string) {
    0 <= i && i + |w| <= |s| && forall k :: 0 <= k < |w| ==> LowerChar(s[i + k]) == w[k]
  }

  /** `s[a..b]` is non-empty and all whitespace: a match of `\s+`. */
  predicate SpaceRun(s: string, a: int, b: int) {
    0 <= a < b <= |s| && forall k :: a <= k < b ==> IsWhitespace(s[k])
  }

  /** `s[a..b]` holds no newline: a match of `.*`. */
  predicate LineRun(s: string, a: int, b: int) {
    0 <= a <= b <= |s| && forall k :: a <= k < b ==> s[k] != '\n'
  }

  /** `re.search(r'(?i)(w1\s+w2)', s)` finds a match. */
  predicate WordsSpaced(s: string, w1: string, w2: string) {
    exists i, j | 0 <= i <= |s| && 0 <= j <= |s| ::
      WordAt(s, i, w1) && SpaceRun(s, i + |w1|, j) && WordAt(s, j, w2)
  }

  /** `re.search(r'(?i)(update\s+.*\s+set)', s)` finds a match. */
  predicate UpdateSet(s: string) {
    exists i, a, b, j | 0 <= i <= |s| && 0 <= a <= |s| && 0 <= b <= |s| && 0 <= j <= |s| ::
      && WordAt(s, i, "update")
      && SpaceRun(s, i + 6, a)
      && LineRun(s, a, b)
      && SpaceRun(s, b, j)
      && WordAt(s, j, "set")
  }

  /** The comment-marker search finds a match: a double dash, a slash-star or a star-slash occurs. */
  predicate CommentMarker(s: string) {
    Contains(s, "--") || Contains(s, "/*") || Contains(s, "*/")
  }

  /** Any of the four patterns `BookSearchForm.clean_query` rejects. */
  predicate QueryDanger(s: string) {
    || WordsSpaced(s, "union", "select")
    || WordsSpaced(s, "drop", "table")
    || WordsSpaced(s, "delete", "from")
    || CommentMarker(s)
  }

  /** Any of the six patterns `BookForm.clean_title` and `clean_author` reject. */
  predicate FieldDanger(s: string) {
    || WordsSpaced(s, "union", "select")
    || WordsSpaced(s, "drop", "table")
    || WordsSpaced(s, "delete", "from")
    || WordsSpaced(s, "insert", "into")
    || UpdateSet(s)
    || CommentMarker(s)
  }

  /** The comment markers are made of characters that neither stripping nor escaping touches. */
  predicate IsMarker(p: string) {
    p == "--" || p == "/*" || p == "*/"
  }

  /** A single space between `update` and `set` is not enough: `\s+.*\s+` needs two whitespace characters. */
  lemma UpdateSetNeedsTwoSpaces()
    ensures !UpdateSet("update set")
  {
  }

  /** Two spaces are: `\s+` takes one, `.*` nothing, `\s+` the other. */
  lemma UpdateSetWithTwoSpaces()
    ensures UpdateSet("update  set")
  {
    var s := "update  set";
    assert WordAt(s, 0, "update") && SpaceRun(s, 6, 7) && LineRun(s, 7, 7)
      && SpaceRun(s, 7, 8) && WordAt(s, 8, "set");
  }
}

=== FILE: wrappers.dfy ===
/** Outcome types shared by every validator of the model. */
module Wrappers {

  /** A value that may be missing: Python's `None` versus a present value. */
  datatype Option<+T> = None | Some(value: T)

  /** The outcome of a validator: the cleaned value, or the message of the
      validation error it raises. */
  datatype Result<+T> = Ok(value: T) | Err(msg: string)
}
